=== FILE: README.md ===
# ilab-docs: table-of-contents core in Dafny

ilab-docs is a WordPress plugin that shows markdown documentation sets
("docsets") inside the admin area. Each docset has a `config.json` whose
`toc` key holds a tree of entries. Each entry has a `title`, a `src` slug
(the document path without ".md") and optional `children`. This project
models the two pure cores around that tree:

- **Building the tree.** This is the `wp docs toc` command. It walks the docs
  directory and folds the paths into a nested structure of groups. It then
  turns that structure into TOC nodes, and takes each title from the first
  heading at the shallowest level from h1 to h4. The command rewrites only
  the `toc` key of the configuration. The `wp docs index` command, its
  sibling, checks the same preconditions before it replaces the search index.
- **Using the tree.** This is the admin plugin. It covers:
  - depth-first lookup of an entry and of its children;
  - the breadcrumb trail;
  - the nested list rendered for a TOC, which skips "index";
  - the link-rewriting filter applied while markdown is rendered;
  - `@toc(...)` directives;
  - mapping search hits back to TOC entries;
  - choosing the docset and page from the request;
  - normalising each docset's directory and URL;
  - the admin menus and admin-bar nodes.

Modules, in dependency order:

| module | file | concept |
|---|---|---|
| `Wrappers` | wrappers.dfy | `Option` |
| `Strings` | strings.dfy | the PHP string functions used: `strpos`, `str_replace`, `explode`, `trim` |
| `TocTree` | toc_tree.dfy | TOC nodes, breadcrumbs, pre-order |
| `Titles` | titles.dfy | `extractTitle` over a heading oracle |
| `Structure` | structure.dfy | the directory structure built by the walk |
| `TocBuilder` | toc_builder.dfy | `structureToTOC` |
| `Commands` | commands.dfy | the `index` and `toc` commands |
| `TocQueries` | toc_queries.dfy | entry and children lookup, breadcrumb trail |
| `TocRender` | toc_render.dfy | `convertEntriesToHTML` as a structured list, `@toc` selection |
| `UrlFilter` | url_filter.dfy | the markdown URL filter |
| `SearchHits` | search_hits.dfy | search hits to TOC entries |
| `Request` | request.dfy | docset and page selection, directory and URL normalisation |
| `Menus` | menus.dfy | admin menu partition, submenus, admin-bar nodes |
| `RoundTrip` | roundtrip.dfy | properties across the modules |

Parameters stand in for everything the model does not compute:

- The markdown-to-DOM step is a heading oracle, `headings(path, level)`.
- `admin_url` is an uninterpreted function, `AdminUrl`.
- The ranked hits of the search library are an input sequence of paths.
- The directory walk is an input sequence of absolute paths.
- The file system is a `Docroot` record of which files exist, plus the
  decoded configuration.

A present-but-empty `children` key differs from an absent one. For example,
`convertEntriesToHTML` renders an empty `<ul></ul>` for the first and no
nested list for the second; `TocRender.ConvertEntries` gives `SubList([])`
and `NoSubList`. The model therefore keeps the key as a datatype,
`Children = Absent | Present(nodes)`. This is `Option<seq<Node>>` written
out, so that termination can see through it.

## Model

| member | source | states |
|---|---|---|
| Titles.ExtractTitle | classes/CLI/Search/SearchCommands.php:27-51 | no title exactly when h1..h4 are all empty; otherwise the first heading of some level whose shallower levels are all empty |
| Titles.ScanIsShallowest | classes/CLI/Search/SearchCommands.php:35-47 | the scan from a level finds the first heading of the shallowest non-empty level from there to h4, and nothing exactly when all of those are empty |
| Titles.DeepLevelsIgnored | classes/CLI/Search/SearchCommands.php:40-42 | two documents that agree on h1..h4 get the same title: h5 and deeper are never consulted |
| Titles.TitleOrUntitled | classes/CLI/Search/SearchCommands.php:65 | "Untitled" when h1..h4 are all empty; otherwise the first heading of the shallowest non-empty level among h1..h4 |
| Strings.IndexOf | classes/CLI/Search/SearchCommands.php:154 | `strpos`: the returned position is an occurrence and no earlier position is one; no result exactly when there is no occurrence |
| Strings.RemoveAll | classes/CLI/Search/SearchCommands.php:66 | `str_replace` with an empty replacement never lengthens the text and removes a multiple of the needle's length; an empty needle changes nothing. Which characters go is stated by Strings.RemoveAllFirstCopy |
| Strings.RemoveAllAbsent | classes/CLI/Search/SearchCommands.php:66 | `str_replace` with a needle that does not occur returns the subject unchanged |
| Strings.RemoveAllPrefix | classes/CLI/Search/SearchCommands.php:155 | removing a needle from needle+rest is removing it from rest: stripping the docs directory from the front of a path |
| Strings.RemoveAllFirstCopy | classes/CLI/Search/SearchCommands.php:66 | text before the first copy of the needle is kept unchanged, that copy is removed, and removal continues on the rest: `str_replace` removes exactly the leftmost non-overlapping copies |
| Strings.Split | classes/CLI/Search/SearchCommands.php:156 | `explode` yields at least one piece and no piece holds the separator |
| Strings.JoinSplit | classes/CLI/Search/SearchCommands.php:156 | `explode` loses nothing: joining the pieces on the separator gives the path back |
| Strings.SplitWithoutSeparator | classes/CLI/Search/SearchCommands.php:156-157 | a path without a separator is a single file piece with no directories |
| Strings.Trim | classes/Plugin/DocsPlugin.php:58-59 | `trim`: the result is the input with only copies of the character cut from its two ends, and neither end of the result is that character |
| Structure.DirIndex | classes/CLI/Search/SearchCommands.php:167 | `isset($current[$top])`: the index of the first group with that name, none exactly when no group has it |
| Structure.Insert | classes/CLI/Search/SearchCommands.php:159-173 | after inserting, the named group exists and its files are the old ones with the new file appended |
| Structure.InsertShape | classes/CLI/Search/SearchCommands.php:166-172 | an existing directory is reused (names unchanged); a missing one is appended once, after the others |
| Structure.InsertWellFormed | classes/CLI/Search/SearchCommands.php:167-171 | inserting never creates two groups with the same name in one group |
| Structure.InsertFrame | classes/CLI/Search/SearchCommands.php:159-173 | every other group's files are unchanged by an insert |
| Structure.InsertCount | classes/CLI/Search/SearchCommands.php:162 | an insert adds exactly one file to the whole structure |
| Structure.Admitted | classes/CLI/Search/SearchCommands.php:154 | a path is admitted exactly when it holds ".md" somewhere and does not start with it (`strpos` above 0) |
| Structure.InsertPath | classes/CLI/Search/SearchCommands.php:155-173 | the last piece of the stripped path is appended to the group its other pieces name; the structure gains exactly one file; no group gets a duplicate directory |
| Structure.Build | classes/CLI/Search/SearchCommands.php:152-175 | the structure holds exactly one file per admitted path of the walk, and never two directories of one name in a group |
| Structure.RejectedPathIgnored | classes/CLI/Search/SearchCommands.php:154 | a path without ".md" at a position above 0 leaves the structure unchanged |
| Structure.AdmittedPathLands | classes/CLI/Search/SearchCommands.php:154-173 | an admitted path's last piece is appended to the group its other pieces name; no other group changes |
| TocBuilder.StructureToToc | classes/CLI/Search/SearchCommands.php:53-79 | one node per file in file order; src is the parent prefix plus the file name without any ".md"; the title comes from the file's headings; children are present exactly when a sibling directory has the stripped name |
| TocBuilder.FileNode | classes/CLI/Search/SearchCommands.php:65-77 | the node's slug is the parent prefix plus the file name without ".md"; its title comes from the file's headings; children are present exactly when a sibling directory has that slug, and are then that directory's tree built under the slug plus the separator |
| TocBuilder.ChildrenFromSameNamedDir | classes/CLI/Search/SearchCommands.php:72-75 | present children are the tree of the same-named directory, built under the node's slug plus the separator |
| TocBuilder.SlugsUnderParent | classes/CLI/Search/SearchCommands.php:69-74 | every node at any depth has a slug starting with the prefix its level was built under |
| TocBuilder.OrphanDirContributesNothing | classes/CLI/Search/SearchCommands.php:56-75 | a directory with no same-named sibling file adds nothing: removing it, and all below it, leaves the tree identical |
| Commands.DocsDirectory | classes/CLI/Search/SearchCommands.php:91 | the docs directory is the working directory followed by one separator |
| Commands.Precheck | classes/CLI/Search/SearchCommands.php:94-103 | no error exactly when both index.md and config.json exist; a missing index.md is reported first, each with its own message |
| Commands.BuiltToc | classes/CLI/Search/SearchCommands.php:152-178 | the written tree is the conversion of the structure built from the walk, so every level follows TocBuilder.StructureToToc and TocBuilder.ChildrenFromSameNamedDir; its top level is one node per file directly in the docs directory, in walk order, each with the file's slug and title and no directory prefix |
| Commands.IndexCommand | classes/CLI/Search/SearchCommands.php:90-123 | fails exactly when index.md or config.json is missing, with the index.md message first; otherwise three steps (delete the old index, build, record the docs directory) when an index exists and the last two otherwise |
| Commands.IndexRemovesOldIndexFirst | classes/CLI/Search/SearchCommands.php:105-121 | with an existing index, the deletion comes before the build and the recorded source directory |
| Commands.WithToc | classes/CLI/Search/SearchCommands.php:146-180 | `toc` holds the new tree; the key set is the old one plus `toc`; every other key keeps its value; a file that decodes to null starts from an empty map |
| Commands.TocCommand | classes/CLI/Search/SearchCommands.php:131-185 | fails exactly when index.md or config.json is missing, with the precheck's message; otherwise one write of config.json whose keys are the old keys plus `toc`, `toc` holding the built tree and every other key its old value |
| Commands.CommandsShareGuard | classes/CLI/Search/SearchCommands.php:94-103 | both commands fail in the same directories with the same message |
| Commands.TocCommandIdempotent | classes/CLI/Search/SearchCommands.php:180-181 | running toc again on the configuration it wrote writes the same configuration |
| Commands.TocCommandWritesBuiltTree | classes/CLI/Search/SearchCommands.php:177-180 | what is written under `toc` is the tree built from the walk |
| TocTree.PreOrder | classes/Plugin/DocsPlugin.php:234-249 | the traversal order of the lookups starts at the first top-level node |
| TocTree.InPreOrder | classes/Plugin/DocsPlugin.php:234-249 | a node is visited exactly when it is a top-level node or is below one |
| TocTree.PreOrderAppend | classes/Plugin/DocsPlugin.php:235 | the traversal of a concatenated list is the traversal of the first part followed by that of the second |
| TocTree.ChildrenInPreOrder | classes/Plugin/DocsPlugin.php:241-246 | the children of a visited node are visited too |
| TocQueries.FirstMatch | classes/Plugin/DocsPlugin.php:234-249 | reference: the first node of a flat list with the slug; none exactly when no node has it |
| TocQueries.EntryFor | classes/Plugin/DocsPlugin.php:234-249 | a found entry has the requested slug |
| TocQueries.EntryForIsFirstInPreOrder | classes/Plugin/DocsPlugin.php:234-249 | `getTocEntryForFile` returns the first pre-order node with the slug (a node before its children, siblings left to right) and false when none has it |
| TocQueries.EntryForFindsEverySrc | classes/Plugin/DocsPlugin.php:234-249 | the lookup succeeds exactly for the slugs present at some depth, and returns a node of the tree |
| TocQueries.ChildrenFor | classes/Plugin/DocsPlugin.php:147-166 | `getChildrenEntriesFor` is null exactly when the entry lookup fails; otherwise it is the matched node's children, or [] when it has none |
| TocQueries.SearchForPage | classes/Plugin/DocsPlugin.php:175-199 | `searchForCurrentPage` succeeds exactly when the entry lookup does, and its first crumb is that of the matched entry |
| TocQueries.ChainTo | classes/Plugin/DocsPlugin.php:175-199 | a found chain starts at a top-level node, descends parent to child, and ends at a node with the slug |
| TocQueries.ChainEndsAtEntry | classes/Plugin/DocsPlugin.php:175-199 | a chain exists exactly when the lookup succeeds, and ends at the node the lookup returns |
| TocQueries.SearchFollowsChain | classes/Plugin/DocsPlugin.php:175-199 | `searchForCurrentPage` collects the chain's crumbs leaf first, and fails exactly when there is no chain |
| TocQueries.Reverse | classes/Plugin/DocsPlugin.php:221 | `array_reverse`: the same length, with element k taken from the mirrored position |
| TocQueries.RootTitle | classes/Plugin/DocsPlugin.php:207 | the configured title when there is one, otherwise "Documentation" |
| TocQueries.Trail | classes/Plugin/DocsPlugin.php:206-225 | the trail always starts with the root crumb: the configured title, or "Documentation" when there is none, linking to "index" |
| TocQueries.TrailIsRootOnly | classes/Plugin/DocsPlugin.php:213-224 | the trail is the root alone exactly when the page is "index" or not in the tree |
| TocQueries.TrailFollowsAncestors | classes/Plugin/DocsPlugin.php:175-224 | for a page found at depth d the trail is the root then the d nodes from top level down to the page, ending with the matched node |
| TocRender.ConvertEntries | classes/Plugin/DocsPlugin.php:260-278 | no item at the top level links "index"; never more items than entries; without top-level "index" entries each item mirrors its entry (title, page, link, nested list exactly when children are present) and a nested list holds the conversion of that entry's children |
| TocRender.NoIndexAtAnyDepth | classes/Plugin/DocsPlugin.php:260-278 | no item at any depth links to "index" |
| TocRender.IndexEntrySkipped | classes/Plugin/DocsPlugin.php:262-264 | an "index" entry and its whole subtree contribute nothing: removing it leaves the list unchanged |
| TocRender.IndexFreeTreeFullyListed | classes/Plugin/DocsPlugin.php:260-278 | in a tree without "index", the list links every node, in pre-order |
| TocRender.TocArgs | classes/Plugin/DocsPlugin.php:386 | each directive's argument holds no `)` |
| TocRender.TocArgsRoundTrip | classes/Plugin/DocsPlugin.php:386 | `@toc(a)` followed by text yields `a` then the arguments of that text |
| TocRender.TocSelection | classes/Plugin/DocsPlugin.php:387-404 | a directive is replaced only by a non-empty list; for "index", named or defaulted, it lists the whole TOC, and is replaced exactly when the TOC exists and is non-empty |
| TocRender.TocSelectionOfPage | classes/Plugin/DocsPlugin.php:393-401 | a directive naming a page lists that page's children, and is replaced exactly when the page is in the tree with at least one child |
| TocRender.TocSelectionDefaultsToCurrentPage | classes/Plugin/DocsPlugin.php:389-391 | an empty argument, "0" included, stands for the current page |
| TocRender.TocDirective | classes/Plugin/DocsPlugin.php:401-404 | a list is rendered exactly when entries are selected, and it is the converted list of the selected entries: no more items than entries and none for "index" |
| UrlFilter.AdminTarget | classes/Plugin/DocsPlugin.php:353-355 | the captured target is the text after "admin:" up to the first line break or the end: a prefix of that text with no line break, ending only at a line break or at the end |
| UrlFilter.FilterUrl | classes/Plugin/DocsPlugin.php:345-372 | the four cases in priority order: ".md" links become doc-page links with every ".md" removed; else the text after the first "admin:" goes through `admin_url`; else a local image gets the docset URL unless it is absolute http(s); else the URL is unchanged |
| UrlFilter.DocLinkTakesPriority | classes/Plugin/DocsPlugin.php:347-355 | any URL holding ".md" becomes the doc-page link of the URL with every ".md" removed, even when it also holds "admin:" or an image extension |
| UrlFilter.NonLinkUrls | classes/Plugin/DocsPlugin.php:358-372 | without ".md" or "admin:" the URL is kept or prefixed with the docset URL; a root-relative URL is always kept; the prefix is added exactly for non-absolute local images |
| UrlFilter.RelativeImageServedFromDocset | classes/Plugin/DocsPlugin.php:359-368 | a relative `.png` name is served from the docset URL |
| SearchHits.HitEntries | classes/Plugin/DocsPlugin.php:449-456 | never more entries than hits; each is a node of the tree |
| SearchHits.HitSlug | classes/Plugin/DocsPlugin.php:451 | the slug derived from a hit is never longer than the hit path |
| SearchHits.HitOfDocument | classes/Plugin/DocsPlugin.php:451 | the hit `<dir><file>` yields the slug the toc builder gives `file` (every ".md" removed) when `<dir>` does not recur inside the file name |
| SearchHits.SingleHit | classes/Plugin/DocsPlugin.php:449-456 | a single hit whose slug resolves yields exactly its entry |
| SearchHits.HitEntriesCharacterised | classes/Plugin/DocsPlugin.php:449-456 | the result is the entries of exactly the hits whose slug resolves, in hit order, each the lookup's match for its hit |
| SearchHits.IndexedDocumentResolves | classes/Plugin/DocsPlugin.php:451-455 | a hit `<source dir><slug>.md` for a slug in the tree strips back to the slug and yields exactly its entry |
| SearchHits.StripMdSuffix | classes/Plugin/DocsPlugin.php:451 | removing ".md" from `<slug>.md` gives the slug back when the slug holds no ".md" |
| SearchHits.SearchResults | classes/Plugin/DocsPlugin.php:428-456 | the corrupt-index page is shown exactly when no source directory is recorded; otherwise the results are the entries of exactly the hits whose slug resolves, in hit order, each the lookup's match for its hit |
| Request.SelectDocset | classes/Plugin/DocsPlugin.php:79-103 | no docset exactly when none is configured; otherwise always a configured key: the requested one when it exists, else the first |
| Request.RequestedDocset | classes/Plugin/DocsPlugin.php:84-98 | a `page` parameter starting with the menu prefix wins, with every copy of the prefix removed; else `doc-set` from the query, then from the form; none exactly when none of the three applies |
| Request.SelectPage | classes/Plugin/DocsPlugin.php:109-114 | `doc-page` from the query, then from the form, else "index" |
| Request.MenuLinkSelectsDocset | classes/Plugin/DocsPlugin.php:84-87 | the admin menu slug `ilab-docs-<key>` selects docset `key` |
| Request.NormalizeDir | classes/Plugin/DocsPlugin.php:58 | exactly one separator at each end; between them the directory with only separators cut from its ends, so a directory without one at either end is wrapped unchanged |
| Request.NormalizeDirIdempotent | classes/Plugin/DocsPlugin.php:58 | normalising a normalised directory changes nothing |
| Request.NormalizeUrl | classes/Plugin/DocsPlugin.php:59 | one trailing `/` and no leading one; before it the URL with only slashes cut from its ends, so a URL without one at either end just gains the trailing slash |
| Request.NormalizeUrlIdempotent | classes/Plugin/DocsPlugin.php:59 | normalising a normalised URL changes nothing |
| Menus.EveryDocsetOnce | classes/Plugin/DocsPlugin.php:661-690 | every docset is in exactly one menu: the menus' keys are a permutation of the docset keys |
| Menus.GroupedMenuShape | classes/Plugin/DocsPlugin.php:661-690 | the "Plugin Docs" menu groups at least two docsets, none standalone or the theme's, and comes last |
| Menus.MenuPlan | classes/Plugin/DocsPlugin.php:661-690 | never more menus than docsets; the theme's and standalone docsets come first, one menu each, in docset order; a grouped menu exists exactly when at least two other docsets exist, is the last one and holds exactly those docsets in order |
| Menus.NonOwnDocsetsGrouped | classes/Plugin/DocsPlugin.php:667-688 | with at least two docsets that are neither standalone nor the theme's, each of them is listed in the grouped menu, which is the last |
| Menus.EntrySubmenus | classes/Plugin/DocsPlugin.php:628-636 | exactly one submenu per top-level entry other than "index", in TOC order: the m-th has the title of the m-th such entry and opens its page; one per entry when there is no "index" |
| Menus.NonIndexMembers | classes/Plugin/DocsPlugin.php:630 | the entries that get a submenu are exactly the top-level entries other than "index" |
| Menus.EveryTopEntryHasSubmenu | classes/Plugin/DocsPlugin.php:628-636 | every top-level entry other than "index" gets its submenu |
| Menus.GroupedSubmenuSlugs | classes/Plugin/DocsPlugin.php:642-657 | every grouped docset's submenu opens its own docset's page, the first included |
| Menus.NodeId | classes/Plugin/DocsPlugin.php:513 | the id is `ilab-docs-node-<docset>-<src>` with every `/` turned into `-`, character by character; it holds no `/` |
| Menus.DocsetNodeId | classes/Plugin/DocsPlugin.php:560 | the docset's own node id is `ilab-docs-node-<key>` with every `/` turned into `-` |
| Menus.NodeIdInjective | classes/Plugin/DocsPlugin.php:513 | two slugs without a `-` get the same node id only when they are equal |
| Menus.NodeIdsCanCollide | classes/Plugin/DocsPlugin.php:513 | the slugs "a/b" and "a-b" get the same node id |
| Menus.BarNodes | classes/Plugin/DocsPlugin.php:511-528 | one node per TOC entry, in pre-order, with that entry's id, title and page link |
| Menus.EntryNodeAndSubtree | classes/Plugin/DocsPlugin.php:511-528 | the nodes split around any top-level entry: the nodes of the entries before it, then its own node hung under the given parent, then its children's nodes hung under its own id, then the nodes of the entries after it |
| Menus.ParentsComeFirst | classes/Plugin/DocsPlugin.php:511-528 | every node hangs under the given parent or under a node added before it |
| Menus.GroupedBarNodes | classes/Plugin/DocsPlugin.php:559-574 | one node per docset plus one per TOC entry at any depth; every docset's own node (under "Plugin Docs", linking to its index page) is among them, the first docset's first, and so is every node of each docset's TOC hung under that docset's node |
| Menus.GroupedBarParentsComeFirst | classes/Plugin/DocsPlugin.php:553-574 | every node of the grouped admin bar hangs under "Plugin Docs" or under a node added before it |
| Menus.OnlyDocsetsUnderPluginDocs | classes/Plugin/DocsPlugin.php:559-574 | the nodes directly under "Plugin Docs" are docsets' own nodes; TOC entries hang under a docset or another entry |
| RoundTrip.TopLevelFileFound | classes/CLI/Search/SearchCommands.php:64-77 | every top-level file of the structure is found by the admin lookup under its slug |
| RoundTrip.NestedFileFound | classes/CLI/Search/SearchCommands.php:72-75 | a file in a directory with a same-named sibling file is found under `<dir>/<slug>` |
| RoundTrip.RootPageListed | classes/CLI/Search/SearchCommands.php:152-180 | a markdown file placed directly in the docs directory is found in the tree the toc command writes |
| RoundTrip.RootPageSearchable | classes/CLI/Search/SearchCommands.php:90-185 | for a file placed directly in the docs directory, the index records that directory, the hit for the file strips to the slug the toc command gave it, and the search page shows exactly that entry |

## Left out

- Search indexing, tokenising and ranking belong to the search library, and so do the SQLite `info` table and its query. The hits arrive as an input sequence of paths, and `source_dir` as an optional string. The `index` command puts the docs directory into the SQL text of that write without escaping it, so a directory whose path holds a `'` records no `source_dir`, and the search page then reports the index as corrupt or missing; `Commands.IndexCommand` records the directory whatever its path.
- File system work is not modelled. This covers `getcwd`, `file_exists`, `realpath` and the containment check of DocsPlugin.php lines 116-121, reading and writing files, and `unlink`. It also covers the order of the recursive directory iterator, which is an input here.
- Markdown and HTML5 parsing are not modelled. A heading oracle replaces them. oEmbed processing of `@[...](...)` is left out as well.
- The `@toc` text substitution is not modelled. The model covers which argument each directive has and which entries it lists, but not the `str_replace` of the HTML into the page.
- WordPress APIs and chrome are not modelled: hooks, `add_menu_page` and `add_submenu_page` beyond their slugs, the admin bar beyond its nodes, AJAX responses, and the header, breadcrumb and search-form HTML. Menu titles and icons are also left out.
- JSON encoding and decoding are not modelled. The configuration is a map from keys to values. `None` stands for a file that decodes to `null` or `false`, which happens for invalid JSON and for those two literals; PHP then starts from a fresh array.
- PHP loose `==`, numeric-looking keys, and `sanitize_title` of docset keys are not modelled. Keys compare as strings.
- A standalone docset whose key is "plugins" lands in the slot the PHP menu builders use for the group (lines 664-672), so the code treats it as the group. The model keys the group separately and gives that docset its own menu.
- The `toc` command's final info message is left out.
- The PHP structure array interleaves files and subdirectories in one array. The model keeps them as two ordered lists. The only consumer, `structureToTOC`, splits them apart at lines 56-62, so the interleaving is never observed.
- The walk filter looks for ".md" in the full path, before the docs directory is stripped, as the code does; a docs directory whose own path holds ".md" therefore admits every file below it.
- The admin bar of a single docset (lines 536-546) is `Menus.BarNodes` hung under the menu id `ilab-docs-bar-<key>`; the menu node itself, with its icon and title, is left out.
- `DIRECTORY_SEPARATOR` is fixed to `/` (`Strings.Sep`): the model assumes a Unix host.
- The heading oracle is keyed by the docset-relative path of a file. The code reads the file at its absolute path, which is the docs directory followed by that same relative path.
- Commands.IndexCommand: the effects are named steps, not file contents.
- RoundTrip.RootPageListed: covers files directly in the docs directory. Deeper files are covered one level down by RoundTrip.NestedFileFound.
- Commands.TocCommand: a `config.json` that decodes to `true`, a number, a string or a top-level list is not modelled. For `true`, numbers and strings, PHP 8 raises an Error at `$config['toc'] =` and writes nothing. A list keeps its elements under the keys "0", "1", and so on, next to `toc`. `false` behaves like `null` and is covered by `None`.
- SearchHits.HitSlug: its own contract only bounds the length. What the slug is for a document of the indexed directory is stated by SearchHits.HitOfDocument.

=== FILE: commands.dfy ===
/** The two WP-CLI commands of the search command class (`wp docs index`
    and `wp docs toc`). The file system is an input: a snapshot of the
    working directory holding which of the three well-known files exist,
    the decoded `config.json`, and the recursive walk of the directory.
    Each command answers with an error message or with the effects it
    performs, in order. */
module Commands {
  import opened Wrappers
  import opened Strings
  import opened TocTree
  import opened Structure
  import opened TocBuilder

  const MissingIndex: string :=
    "Missing index.md file.  This command should be run from your docs directory."
  const MissingConfig: string :=
    "Missing config.json file.  This command should be run from your docs directory."
  /** The key of `config.json` that the toc command rewrites. */
  const TocKey: string := "toc"

  /** A value of the decoded configuration: the table of contents, or any
      other JSON value, kept as its text. */
  datatype Value = Other(json: string) | Toc(entries: seq<Node>)

  /** The working directory as the commands see it. `config` is the object
      `config.json` decodes to, or `None` when it decodes to `null` or
      `false` (the file is not valid JSON, or is one of those literals), both
      of which `$config['toc'] = ...` turns into a fresh array; a file
      holding another scalar or a top-level list is outside this model. `walk` is the
      self-first recursive listing of the directory, as absolute paths. */
  datatype Docroot = Docroot(
    cwd: string,
    hasIndexMd: bool,
    hasConfigJson: bool,
    hasSearchIndex: bool,
    config: Option<map<string, Value>>,
    walk: seq<string>)

  /** The steps the commands take, by name. `RecordSourceDir` stands for the
      `source_dir` insert of line 121, which splices the directory into the
      SQL text unescaped; that insert fails for a path holding `'`, which
      this model does not track. */
  datatype Effect =
    | DeleteSearchIndex                  // unlink `docs.index`
    | BuildSearchIndex(location: string) // index every ".md" under `location`
    | RecordSourceDir(dir: string)       // the `source_dir` row of the index
    | WriteConfig(config: map<string, Value>)

  datatype Outcome = Failed(message: string) | Done(effects: seq<Effect>)

  /** Lines 91 and 132: the working directory followed by the separator. */
  function DocsDirectory(d: Docroot): (dir: string)
    ensures |dir| == |d.cwd| + 1 && dir[|d.cwd|] == Sep
    ensures dir[..|d.cwd|] == d.cwd
  {
    d.cwd + [Sep]
  }

  /** Lines 94-103 (and 135-144): `index.md` is checked before `config.json`. */
  function Precheck(d: Docroot): (err: Option<string>)
    ensures err.None? <==> d.hasIndexMd && d.hasConfigJson
    ensures !d.hasIndexMd ==> err == Some(MissingIndex)
    ensures d.hasIndexMd && !d.hasConfigJson ==> err == Some(MissingConfig)
  {
    if !d.hasIndexMd then Some(MissingIndex)
    else if !d.hasConfigJson then Some(MissingConfig)
    else None
  }

  /** `wp docs index` (lines 90-123). */
  function IndexCommand(d: Docroot): (r: Outcome)
    ensures r.Failed? <==> !d.hasIndexMd || !d.hasConfigJson
    ensures !d.hasIndexMd ==> r == Failed(MissingIndex)
    ensures d.hasIndexMd && !d.hasConfigJson ==> r == Failed(MissingConfig)
    ensures r.Done? ==>
      && (DeleteSearchIndex in r.effects <==> d.hasSearchIndex)
      && |r.effects| == (if d.hasSearchIndex then 3 else 2)
      && (d.hasSearchIndex ==> r.effects[0] == DeleteSearchIndex)
      && r.effects[|r.effects| - 2] == BuildSearchIndex(DocsDirectory(d))
      && r.effects[|r.effects| - 1] == RecordSourceDir(DocsDirectory(d))
  {
    match Precheck(d)
    case Some(message) => Failed(message)
    case None =>
      var dir := DocsDirectory(d);
      var rebuild := [BuildSearchIndex(dir), RecordSourceDir(dir)];
      Done(if d.hasSearchIndex then [DeleteSearchIndex] + rebuild else rebuild)
  }

  /** Lines 152-178: the table of contents built from the walk. It is the
      conversion of the whole structure, so every level below follows
      `StructureToToc`'s contract; its top level is one node per file
      directly in the docs directory, in walk order, with the file's own
      slug and title (no directory prefix). */
  function BuiltToc(d: Docroot, headings: HeadingOracle): (r: seq<Node>)
    ensures r == StructureToToc("", Build(DocsDirectory(d), d.walk), headings)
    ensures var root := Build(DocsDirectory(d), d.walk).files;
      && |r| == |root|
      && (forall i :: 0 <= i < |r| ==> r[i].src == Stem(root[i]))
      && (forall i :: 0 <= i < |r| ==> r[i].title == TitleOf(headings, root[i]))
  {
    var root := Build(DocsDirectory(d), d.walk).files;
    assert forall i :: 0 <= i < |root| ==> "" + root[i] == root[i];
    StructureToToc("", Build(DocsDirectory(d), d.walk), headings)
  }

  /** Lines 146 and 180: the configuration with `toc` set. A file that
      decodes to `null` starts from an empty one. */
  function WithToc(config: Option<map<string, Value>>, toc: seq<Node>): (c: map<string, Value>)
    ensures TocKey in c && c[TocKey] == Toc(toc)
    ensures c.Keys == config.GetOr(map[]).Keys + {TocKey}
    ensures forall k :: k in config.GetOr(map[]) && k != TocKey ==> k in c && c[k] == config.GetOr(map[])[k]
  {
    config.GetOr(map[])[TocKey := Toc(toc)]
  }

  /** `wp docs toc` (lines 131-185): one write of `config.json`, holding the
      built tree under `toc` and every other key of the old file unchanged. */
  function TocCommand(d: Docroot, headings: HeadingOracle): (r: Outcome)
    ensures r.Failed? <==> !d.hasIndexMd || !d.hasConfigJson
    ensures r.Failed? ==> r.message == Precheck(d).value
    ensures r.Done? ==> |r.effects| == 1 && r.effects[0].WriteConfig?
    ensures r.Done? ==> r.effects[0] == WriteConfig(WithToc(d.config, BuiltToc(d, headings)))
    ensures r.Done? ==>
      var prior := d.config.GetOr(map[]);
      var c := r.effects[0].config;
      && c.Keys == prior.Keys + {TocKey}
      && c[TocKey] == Toc(BuiltToc(d, headings))
      && (forall k :: k in prior && k != TocKey ==> c[k] == prior[k])
  {
    match Precheck(d)
    case Some(message) => Failed(message)
    case None => Done([WriteConfig(WithToc(d.config, BuiltToc(d, headings)))])
  }

  /** Both commands refuse to run in the same directories with the same
      message, and neither touches anything when it refuses. */
  lemma CommandsShareGuard(d: Docroot, headings: HeadingOracle)
    ensures IndexCommand(d).Failed? <==> TocCommand(d, headings).Failed?
    ensures IndexCommand(d).Failed? ==> IndexCommand(d) == TocCommand(d, headings)
  {
  }

  /** Running the toc command again on the configuration it just wrote
      writes that same configuration: a second run changes nothing. */
  lemma TocCommandIdempotent(d: Docroot, headings: HeadingOracle)
    requires TocCommand(d, headings).Done?
    ensures var c := TocCommand(d, headings).effects[0].config;
      TocCommand(d.(config := Some(c)), headings) == TocCommand(d, headings)
  {
    var c := TocCommand(d, headings).effects[0].config;
    var again := WithToc(Some(c), BuiltToc(d, headings));
    assert again == c;
  }

  /** What the toc command writes under `toc` is the tree built from the
      walk, whatever `config.json` held before. */
  lemma TocCommandWritesBuiltTree(d: Docroot, headings: HeadingOracle)
    requires d.hasIndexMd && d.hasConfigJson
    ensures var r := TocCommand(d, headings);
      r.Done? && r.effects[0].config[TocKey] == Toc(BuiltToc(d, headings))
  {
  }

  /** Re-indexing starts from scratch exactly when an index already exists:
      the old index is removed before anything is built. */
  lemma IndexRemovesOldIndexFirst(d: Docroot)
    requires d.hasIndexMd && d.hasConfigJson && d.hasSearchIndex
    ensures IndexCommand(d).effects ==
      [DeleteSearchIndex, BuildSearchIndex(DocsDirectory(d)), RecordSourceDir(DocsDirectory(d))]
  {
  }
}

=== FILE: menus.dfy ===
/** Which admin menus are built for the installed docsets (lines 661-690,
    and the same partition for the admin bar at 581-610), and the admin-bar
    nodes for a docset's TOC (lines 511-528). */
module Menus {
  import opened Wrappers
  import opened Strings
  import opened TocTree
  import TocRender

  /** A docset as the menu builders see it: its key and its `standalone` flag. */
  datatype DocsetInfo = DocsetInfo(key: string, standalone: bool)

  /** A top-level menu: one docset on its own, or several under "Plugin Docs". */
  datatype Menu = Single(key: string) | Grouped(keys: seq<string>)

  /** The theme's docset and standalone docsets get a menu of their own. */
  predicate OwnMenu(d: DocsetInfo) {
    d.key == "theme" || d.standalone
  }

  function Keys(ds: seq<DocsetInfo>): (r: seq<string>)
    ensures |r| == |ds|
    ensures forall k :: 0 <= k < |ds| ==> r[k] == ds[k].key
  {
    seq(|ds|, k requires 0 <= k < |ds| => ds[k].key)
  }

  /** The keys with their own menu, in docset order. */
  function OwnKeys(ds: seq<DocsetInfo>): seq<string>
    decreases |ds|
  {
    if |ds| == 0 then []
    else (if OwnMenu(ds[0]) then [ds[0].key] else []) + OwnKeys(ds[1..])
  }

  /** The keys collected under `$menusToBuild['plugins']`, in docset order. */
  function PluginKeys(ds: seq<DocsetInfo>): seq<string>
    decreases |ds|
  {
    if |ds| == 0 then []
    else (if OwnMenu(ds[0]) then [] else [ds[0].key]) + PluginKeys(ds[1..])
  }

  function Singles(keys: seq<string>): (r: seq<Menu>)
    ensures |r| == |keys|
    ensures forall k :: 0 <= k < |keys| ==> r[k] == Single(keys[k])
  {
    seq(|keys|, k requires 0 <= k < |keys| => Single(keys[k]))
  }

  /** `buildMenu`: own menus first, in docset order; then the plugin docsets,
      as a single menu when there is one and grouped when there are more. */
  function MenuPlan(ds: seq<DocsetInfo>): (r: seq<Menu>)
    ensures |r| <= |ds|
    ensures forall m :: 0 <= m < |r| && r[m].Grouped? ==> m == |r| - 1 && |r[m].keys| >= 2
    ensures |OwnKeys(ds)| <= |r|
    ensures forall m :: 0 <= m < |OwnKeys(ds)| ==> r[m] == Single(OwnKeys(ds)[m])
    ensures (exists m :: 0 <= m < |r| && r[m].Grouped?) <==> |PluginKeys(ds)| >= 2
    ensures forall m :: 0 <= m < |r| && r[m].Grouped? ==> r[m].keys == PluginKeys(ds)
  {
    var plugins := PluginKeys(ds);
    PartitionSizes(ds);
    var own := Singles(OwnKeys(ds));
    if |plugins| == 0 then own
    else if |plugins| == 1 then own + [Single(plugins[0])]
    else
      assert (own + [Grouped(plugins)])[|own|].Grouped?;
      own + [Grouped(plugins)]
  }

  /** The docset keys a plan covers, in menu order. */
  function PlanKeys(plan: seq<Menu>): seq<string>
    decreases |plan|
  {
    if |plan| == 0 then []
    else
      (match plan[0]
       case Single(k) => [k]
       case Grouped(ks) => ks) + PlanKeys(plan[1..])
  }

  lemma {:induction false} PartitionKeys(ds: seq<DocsetInfo>)
    ensures multiset(OwnKeys(ds)) + multiset(PluginKeys(ds)) == multiset(Keys(ds))
    decreases |ds|
  {
    if |ds| > 0 {
      PartitionKeys(ds[1..]);
      assert Keys(ds)[1..] == Keys(ds[1..]);
      assert Keys(ds) == [ds[0].key] + Keys(ds[1..]);
      assert OwnKeys(ds) == (if OwnMenu(ds[0]) then [ds[0].key] else []) + OwnKeys(ds[1..]);
      assert PluginKeys(ds) == (if OwnMenu(ds[0]) then [] else [ds[0].key]) + PluginKeys(ds[1..]);
    }
  }

  lemma {:induction false} PartitionSizes(ds: seq<DocsetInfo>)
    ensures |OwnKeys(ds)| + |PluginKeys(ds)| == |ds|
    decreases |ds|
  {
    if |ds| > 0 {
      PartitionSizes(ds[1..]);
    }
  }

  lemma {:induction false} PlanKeysAppend(a: seq<Menu>, b: seq<Menu>)
    ensures PlanKeys(a + b) == PlanKeys(a) + PlanKeys(b)
    decreases |a|
  {
    if |a| == 0 {
      assert a + b == b;
    } else {
      assert (a + b)[1..] == a[1..] + b;
      PlanKeysAppend(a[1..], b);
    }
  }

  lemma {:induction false} PlanKeysOfSingles(keys: seq<string>)
    ensures PlanKeys(Singles(keys)) == keys
    decreases |keys|
  {
    if |keys| > 0 {
      assert Singles(keys)[1..] == Singles(keys[1..]);
      PlanKeysOfSingles(keys[1..]);
    }
  }

  /** Every docset appears in exactly one menu: the plan's keys are a
      permutation of the docset keys. */
  lemma EveryDocsetOnce(ds: seq<DocsetInfo>)
    ensures multiset(PlanKeys(MenuPlan(ds))) == multiset(Keys(ds))
  {
    var plugins := PluginKeys(ds);
    var tail: seq<Menu> := if |plugins| == 0 then []
                           else if |plugins| == 1 then [Single(plugins[0])]
                           else [Grouped(plugins)];
    PlanKeysAppend(Singles(OwnKeys(ds)), tail);
    PlanKeysOfSingles(OwnKeys(ds));
    PartitionKeys(ds);
    if |plugins| == 1 {
      assert plugins == [plugins[0]];
    }
    assert PlanKeys(tail) == plugins;
  }

  lemma {:induction false} PluginKeysNotOwn(ds: seq<DocsetInfo>, key: string)
    requires key in PluginKeys(ds)
    ensures exists k :: 0 <= k < |ds| && ds[k].key == key && !OwnMenu(ds[k])
    decreases |ds|
  {
    if !OwnMenu(ds[0]) && key == ds[0].key {
    } else {
      PluginKeysNotOwn(ds[1..], key);
      var k :| 0 <= k < |ds[1..]| && ds[1..][k].key == key && !OwnMenu(ds[1..][k]);
      assert ds[k + 1] == ds[1..][k];
    }
  }

  lemma {:induction false} PluginKeysCollect(ds: seq<DocsetInfo>, k: nat)
    requires k < |ds| && !OwnMenu(ds[k])
    ensures ds[k].key in PluginKeys(ds)
    decreases |ds|
  {
    if k > 0 {
      assert ds[1..][k - 1] == ds[k];
      PluginKeysCollect(ds[1..], k - 1);
    }
  }

  /** With two or more docsets that are neither standalone nor the theme's,
      every such docset is listed under "Plugin Docs", the last menu. */
  lemma NonOwnDocsetsGrouped(ds: seq<DocsetInfo>, k: nat)
    requires k < |ds| && !OwnMenu(ds[k])
    requires |PluginKeys(ds)| >= 2
    ensures |MenuPlan(ds)| > 0
    ensures var last := MenuPlan(ds)[|MenuPlan(ds)| - 1];
      last.Grouped? && ds[k].key in last.keys
  {
    var plan := MenuPlan(ds);
    var m :| 0 <= m < |plan| && plan[m].Grouped?;
    PluginKeysCollect(ds, k);
  }

  /** "Plugin Docs" groups at least two docsets, none of them standalone or
      the theme's, and appears at most once, last. */
  lemma GroupedMenuShape(ds: seq<DocsetInfo>)
    ensures forall m :: 0 <= m < |MenuPlan(ds)| && MenuPlan(ds)[m].Grouped? ==>
      && m == |MenuPlan(ds)| - 1
      && |MenuPlan(ds)[m].keys| >= 2
      && forall key :: key in MenuPlan(ds)[m].keys ==>
           exists k :: 0 <= k < |ds| && ds[k].key == key && !OwnMenu(ds[k])
  {
    var plan := MenuPlan(ds);
    forall m | 0 <= m < |plan| && plan[m].Grouped?
      ensures m == |plan| - 1 && |plan[m].keys| >= 2
      ensures forall key :: key in plan[m].keys ==>
                exists k :: 0 <= k < |ds| && ds[k].key == key && !OwnMenu(ds[k])
    {
      assert plan[m].keys == PluginKeys(ds);
      forall key | key in plan[m].keys
        ensures exists k :: 0 <= k < |ds| && ds[k].key == key && !OwnMenu(ds[k])
      {
        PluginKeysNotOwn(ds, key);
      }
    }
  }

  /** The admin page slug of a docset's menu (lines 624 and 645). */
  function MenuSlug(key: string): string {
    "ilab-docs-" + key
  }

  /** A submenu entry: its title and the page slug it opens. */
  datatype Submenu = Submenu(title: string, slug: string)

  /** The submenu line 634 adds for entry `n` of docset `key`; entries
      with slug "index" get none (line 630). */
  predicate SubmenuFor(key: string, n: Node, m: Submenu) {
    n.src != "index" && m == Submenu(n.title, MenuSlug(key) + "&doc-page=" + n.src)
  }

  /** Reference definition: the top-level entries other than "index", in
      TOC order. */
  function NonIndex(toc: seq<Node>): (r: seq<Node>)
    ensures |r| <= |toc|
    ensures forall k :: 0 <= k < |r| ==> r[k].src != "index"
    ensures (forall i :: 0 <= i < |toc| ==> toc[i].src != "index") ==> r == toc
    decreases |toc|
  {
    if |toc| == 0 then []
    else (if toc[0].src == "index" then [] else [toc[0]]) + NonIndex(toc[1..])
  }

  /** The filter keeps exactly the entries other than "index". */
  lemma {:induction false} NonIndexMembers(toc: seq<Node>, n: Node)
    ensures n in NonIndex(toc) <==> n in toc && n.src != "index"
    decreases |toc|
  {
    if |toc| > 0 {
      NonIndexMembers(toc[1..], n);
      assert toc == [toc[0]] + toc[1..];
    }
  }

  /** `buildSingleMenu` (lines 628-636): one submenu per top-level entry of
      the TOC except the one for "index", in TOC order; nested entries get
      none. */
  function EntrySubmenus(key: string, toc: seq<Node>): (r: seq<Submenu>)
    ensures |r| == |NonIndex(toc)|
    ensures forall m :: 0 <= m < |r| ==> SubmenuFor(key, NonIndex(toc)[m], r[m])
    ensures |r| <= |toc|
    ensures (forall i :: 0 <= i < |toc| ==> toc[i].src != "index") ==> |r| == |toc|
    decreases |toc|
  {
    if |toc| == 0 then []
    else
      var rest := EntrySubmenus(key, toc[1..]);
      if toc[0].src == "index" then
        assert NonIndex(toc) == NonIndex(toc[1..]);
        rest
      else
        var head := Submenu(toc[0].title, MenuSlug(key) + "&doc-page=" + toc[0].src);
        assert NonIndex(toc) == [toc[0]] + NonIndex(toc[1..]);
        SubmenusCons(key, toc[0], head, NonIndex(toc[1..]), rest);
        [head] + rest
  }

  lemma SubmenusCons(key: string, n: Node, m: Submenu, ns: seq<Node>, ms: seq<Submenu>)
    requires SubmenuFor(key, n, m) && |ns| == |ms|
    requires forall k :: 0 <= k < |ms| ==> SubmenuFor(key, ns[k], ms[k])
    ensures forall k :: 0 <= k < |ms| + 1 ==> SubmenuFor(key, ([n] + ns)[k], ([m] + ms)[k])
  {
    forall k | 0 <= k < |ms| + 1
      ensures SubmenuFor(key, ([n] + ns)[k], ([m] + ms)[k])
    {
      if k > 0 {
        assert ([n] + ns)[k] == ns[k - 1] && ([m] + ms)[k] == ms[k - 1];
      }
    }
  }

  /** A top-level entry other than "index" always gets its submenu. */
  lemma {:induction false} EveryTopEntryHasSubmenu(key: string, toc: seq<Node>, i: nat)
    requires i < |toc| && toc[i].src != "index"
    ensures Submenu(toc[i].title, MenuSlug(key) + "&doc-page=" + toc[i].src) in EntrySubmenus(key, toc)
    decreases |toc|
  {
    var rest := EntrySubmenus(key, toc[1..]);
    var head := Submenu(toc[0].title, MenuSlug(key) + "&doc-page=" + toc[0].src);
    assert EntrySubmenus(key, toc) == if toc[0].src == "index" then rest else [head] + rest;
    if i > 0 {
      EveryTopEntryHasSubmenu(key, toc[1..], i - 1);
      assert toc[1..][i - 1] == toc[i];
    }
  }

  /** `buildPluginsMenu` (lines 642-657): every grouped docset gets a submenu
      of the first docset's menu; the first one's slug is written apart from
      the others, but every submenu opens its own docset's page. */
  function GroupedSubmenuSlugs(keys: seq<string>): (r: seq<string>)
    requires |keys| > 0
    ensures |r| == |keys|
    ensures forall k :: 0 <= k < |keys| ==> r[k] == MenuSlug(keys[k])
  {
    var firstKey := keys[0];
    seq(|keys|, k requires 0 <= k < |keys| => if k == 0 then MenuSlug(firstKey) else MenuSlug(keys[k]))
  }

  /** An admin-bar node (`add_node`): id, parent id, title, link. */
  datatype BarNode = BarNode(id: string, parent: string, title: string, href: string)

  /** Every admin-bar node id of a docset or an entry starts with this. */
  const NodePrefix: string := "ilab-docs-node-"

  /** Line 513: the node id of entry `src` of docset `docset`: the prefix,
      the docset, a dash and the slug, with every `/` turned into `-`. */
  function NodeId(docset: string, src: string): (id: string)
    ensures var raw := NodePrefix + docset + "-" + src;
      && |id| == |raw|
      && (forall k :: 0 <= k < |raw| ==> id[k] == if raw[k] == '/' then '-' else raw[k])
    ensures '/' !in id
    ensures StartsWith(id, NodePrefix)
  {
    var raw := NodePrefix + docset + "-" + src;
    assert forall k :: 0 <= k < |NodePrefix| ==> raw[k] == NodePrefix[k] && raw[k] != '/';
    ReplaceChar(raw, '/', '-')
  }

  /** Line 560: the node id of a docset's own node under "Plugin Docs". */
  function DocsetNodeId(key: string): (id: string)
    ensures var raw := NodePrefix + key;
      && |id| == |raw|
      && (forall k :: 0 <= k < |raw| ==> id[k] == if raw[k] == '/' then '-' else raw[k])
    ensures StartsWith(id, NodePrefix)
  {
    var raw := NodePrefix + key;
    assert forall k :: 0 <= k < |NodePrefix| ==> raw[k] == NodePrefix[k] && raw[k] != '/';
    ReplaceChar(raw, '/', '-')
  }

  /** Entry ids are unique among slugs without a dash: turning `/` into `-`
      loses nothing when no `-` was there to begin with. */
  lemma NodeIdInjective(docset: string, a: string, b: string)
    requires '-' !in a && '-' !in b
    requires NodeId(docset, a) == NodeId(docset, b)
    ensures a == b
  {
    var n := |NodePrefix + docset + "-"|;
    assert |a| == |b|;
    forall k | 0 <= k < |a|
      ensures a[k] == b[k]
    {
      assert (NodePrefix + docset + "-" + a)[n + k] == a[k];
      assert (NodePrefix + docset + "-" + b)[n + k] == b[k];
    }
  }

  /** Two different slugs can share a node id: "a/b" and "a-b" both become
      "...-a-b", so the admin bar keeps only one of the two nodes. */
  lemma NodeIdsCanCollide(docset: string)
    ensures NodeId(docset, "a/b") == NodeId(docset, "a-b")
  {
    var n := |NodePrefix + docset + "-"|;
    assert (NodePrefix + docset + "-" + "a/b")[n + 1] == '/';
    assert (NodePrefix + docset + "-" + "a-b")[n + 1] == '-';
  }

  /** Node `k` of `r` is the node of entry `k` of `pre`: the entry's id,
      title, and a link to its page. */
  predicate Mirrors(adminUrl: TocRender.AdminUrl, docset: string, r: seq<BarNode>, pre: seq<Node>) {
    && |r| == |pre|
    && forall k :: 0 <= k < |r| ==>
         && r[k].id == NodeId(docset, pre[k].src)
         && r[k].title == pre[k].title
         && r[k].href == TocRender.PageLink(adminUrl, docset, pre[k].src)
  }

  lemma MirrorsConcat(adminUrl: TocRender.AdminUrl, docset: string,
                      a: seq<BarNode>, pa: seq<Node>, b: seq<BarNode>, pb: seq<Node>)
    requires Mirrors(adminUrl, docset, a, pa) && Mirrors(adminUrl, docset, b, pb)
    ensures Mirrors(adminUrl, docset, a + b, pa + pb)
  {
    var r, pre := a + b, pa + pb;
    forall k | 0 <= k < |r|
      ensures r[k].id == NodeId(docset, pre[k].src) && r[k].title == pre[k].title
      ensures r[k].href == TocRender.PageLink(adminUrl, docset, pre[k].src)
    {
      if k < |a| {
        assert r[k] == a[k] && pre[k] == pa[k];
      } else {
        assert r[k] == b[k - |a|] && pre[k] == pb[k - |a|];
      }
    }
  }

  /** `buildAdminBarMenuEntries`: one node per entry, in pre-order, each
      with the entry's id and title and linking to its page; where each
      node hangs is stated by `EntryNodeAndSubtree`. */
  function BarNodes(adminUrl: TocRender.AdminUrl, docset: string, parentId: string, ns: seq<Node>): (r: seq<BarNode>)
    ensures |r| == |PreOrder(ns)|
    ensures Mirrors(adminUrl, docset, r, PreOrder(ns))
    decreases ns
  {
    if |ns| == 0 then []
    else
      assert ns[0] in ns;
      var id := NodeId(docset, ns[0].src);
      var head := BarNode(id, parentId, ns[0].title, TocRender.PageLink(adminUrl, docset, ns[0].src));
      var sub := match ns[0].children
                 case Absent => []
                 case Present(cs) => BarNodes(adminUrl, docset, id, cs);
      var tail := BarNodes(adminUrl, docset, parentId, ns[1..]);
      PreOrderCons(ns);
      assert Mirrors(adminUrl, docset, sub, PreOrder(Kids(ns[0])));
      MirrorsConcat(adminUrl, docset, [head], [ns[0]], sub, PreOrder(Kids(ns[0])));
      MirrorsConcat(adminUrl, docset, [head] + sub, [ns[0]] + PreOrder(Kids(ns[0])), tail, PreOrder(ns[1..]));
      [head] + sub + tail
  }

  lemma {:induction false} BarNodesAppend(adminUrl: TocRender.AdminUrl, docset: string, parentId: string, a: seq<Node>, b: seq<Node>)
    ensures BarNodes(adminUrl, docset, parentId, a + b) ==
            BarNodes(adminUrl, docset, parentId, a) + BarNodes(adminUrl, docset, parentId, b)
    decreases a
  {
    if |a| == 0 {
      assert a + b == b;
    } else {
      assert (a + b)[0] == a[0];
      assert (a + b)[1..] == a[1..] + b;
      BarNodesAppend(adminUrl, docset, parentId, a[1..], b);
    }
  }

  /** One step of `BarNodes`: the first entry's node, its children's nodes
      under it, then the siblings' nodes. */
  lemma BarNodesCons(adminUrl: TocRender.AdminUrl, docset: string, parentId: string, ns: seq<Node>)
    requires |ns| > 0
    ensures BarNodes(adminUrl, docset, parentId, ns) ==
      [BarNode(NodeId(docset, ns[0].src), parentId, ns[0].title, TocRender.PageLink(adminUrl, docset, ns[0].src))]
      + BarNodes(adminUrl, docset, NodeId(docset, ns[0].src), Kids(ns[0]))
      + BarNodes(adminUrl, docset, parentId, ns[1..])
  {
    assert BarNodes(adminUrl, docset, NodeId(docset, ns[0].src), []) == [];
  }

  /** The nodes of `ns` around its `i`-th entry: those of the entries
      before it, then the entry's own node hung under `parentId`, then its
      children's nodes (none without a `children` key) hung under the
      entry's own id, then those of the entries after it. */
  lemma EntryNodeAndSubtree(adminUrl: TocRender.AdminUrl, docset: string, parentId: string, ns: seq<Node>, i: nat)
    requires i < |ns|
    ensures BarNodes(adminUrl, docset, parentId, ns) ==
      BarNodes(adminUrl, docset, parentId, ns[..i])
      + ([BarNode(NodeId(docset, ns[i].src), parentId, ns[i].title, TocRender.PageLink(adminUrl, docset, ns[i].src))]
         + BarNodes(adminUrl, docset, NodeId(docset, ns[i].src), Kids(ns[i]))
         + BarNodes(adminUrl, docset, parentId, ns[i + 1..]))
  {
    var tail := ns[i..];
    assert ns == ns[..i] + tail;
    BarNodesAppend(adminUrl, docset, parentId, ns[..i], tail);
    assert tail[0] == ns[i] && tail[1..] == ns[i + 1..];
    BarNodesCons(adminUrl, docset, parentId, tail);
  }

  /** Node `k` hangs under `parentId` or under a node emitted before it. */
  predicate ParentBefore(r: seq<BarNode>, parentId: string, k: nat)
    requires k < |r|
  {
    r[k].parent == parentId || exists j :: 0 <= j < k && r[j].id == r[k].parent
  }

  /** Every node of `r` hangs under `parentId` or under an earlier node. */
  predicate ParentsOk(r: seq<BarNode>, parentId: string)
  {
    forall k :: 0 <= k < |r| ==> ParentBefore(r, parentId, k)
  }

  /** A parent node followed by its own well-ordered subtree and a
      well-ordered list of siblings is well ordered. */
  lemma {:induction false} ParentsOkConcat(head: BarNode, sub: seq<BarNode>, tail: seq<BarNode>, parentId: string)
    requires head.parent == parentId
    requires ParentsOk(sub, head.id) && ParentsOk(tail, parentId)
    ensures ParentsOk([head] + sub + tail, parentId)
  {
    var r := [head] + sub + tail;
    forall k | 0 <= k < |r|
      ensures ParentBefore(r, parentId, k)
    {
      if k == 0 {
      } else if k <= |sub| {
        assert r[k] == sub[k - 1];
        assert ParentBefore(sub, head.id, k - 1);
        if sub[k - 1].parent != head.id {
          var j :| 0 <= j < k - 1 && sub[j].id == sub[k - 1].parent;
          assert r[j + 1] == sub[j];
        } else {
          assert r[0].id == r[k].parent;
        }
      } else {
        var t := k - 1 - |sub|;
        assert r[k] == tail[t];
        assert ParentBefore(tail, parentId, t);
        if tail[t].parent != parentId {
          var j :| 0 <= j < t && tail[j].id == tail[t].parent;
          assert r[j + 1 + |sub|] == tail[j];
        }
      }
    }
  }

  /** Every node hangs under the given parent or under a node emitted
      before it, so the admin bar can attach them in order. */
  lemma {:induction false} ParentsComeFirst(adminUrl: TocRender.AdminUrl, docset: string, parentId: string, ns: seq<Node>)
    ensures ParentsOk(BarNodes(adminUrl, docset, parentId, ns), parentId)
    decreases ns
  {
    if |ns| > 0 {
      assert ns[0] in ns;
      var id := NodeId(docset, ns[0].src);
      var head := BarNode(id, parentId, ns[0].title, TocRender.PageLink(adminUrl, docset, ns[0].src));
      var sub := BarNodes(adminUrl, docset, id, Kids(ns[0]));
      BarNodesCons(adminUrl, docset, parentId, ns);
      ParentsComeFirst(adminUrl, docset, parentId, ns[1..]);
      match ns[0].children {
        case Absent =>
          assert ParentsOk(sub, id) by { assert sub == []; }
        case Present(cs) =>
          ParentsComeFirst(adminUrl, docset, id, cs);
      }
      ParentsOkConcat(head, sub, BarNodes(adminUrl, docset, parentId, ns[1..]), parentId);
    }
  }


  /** The id of the "Plugin Docs" admin-bar menu (line 555). */
  const BarMenuId: string := "ilab-docs-bar-menu"

  /** A grouped docset as the admin bar sees it: key, toolbar title, and the
      TOC from its configuration, if it has one. */
  datatype BarDocset = BarDocset(key: string, title: string, toc: Option<seq<Node>>)

  /** A docset's own node: under "Plugin Docs", linking to its index page. */
  function DocsetHead(adminUrl: TocRender.AdminUrl, d: BarDocset): BarNode {
    BarNode(DocsetNodeId(d.key), BarMenuId, d.title, TocRender.PageLink(adminUrl, d.key, "index"))
  }

  /** The number of TOC entries of the docsets, over all levels. */
  function TocNodeCount(ds: seq<BarDocset>): nat
    decreases |ds|
  {
    if |ds| == 0 then 0
    else (match ds[0].toc case None => 0 case Some(toc) => |PreOrder(toc)|) + TocNodeCount(ds[1..])
  }

  /** `buildPluginsAdminBarMenu` (lines 559-574): per docset a node under
      "Plugin Docs" linking to its index page, then its TOC's nodes hung
      under that node: one node per docset and one per TOC entry, every
      docset's own node and every node of its TOC among them. */
  function GroupedBarNodes(adminUrl: TocRender.AdminUrl, ds: seq<BarDocset>): (r: seq<BarNode>)
    ensures |r| == |ds| + TocNodeCount(ds)
    ensures forall i :: 0 <= i < |ds| ==> DocsetHead(adminUrl, ds[i]) in r
    ensures |ds| > 0 ==> r[0] == DocsetHead(adminUrl, ds[0])
    ensures forall i, n ::
      (0 <= i < |ds| && ds[i].toc.Some? && n in BarNodes(adminUrl, ds[i].key, DocsetNodeId(ds[i].key), ds[i].toc.value))
      ==> n in r
    decreases |ds|
  {
    if |ds| == 0 then []
    else
      var id := DocsetNodeId(ds[0].key);
      var head := DocsetHead(adminUrl, ds[0]);
      var sub := match ds[0].toc
                 case None => []
                 case Some(toc) => BarNodes(adminUrl, ds[0].key, id, toc);
      [head] + sub + GroupedBarNodes(adminUrl, ds[1..])
  }

  /** The whole grouped admin bar can be attached in order: every node hangs
      under "Plugin Docs" or under a node added before it. */
  lemma {:induction false} GroupedBarParentsComeFirst(adminUrl: TocRender.AdminUrl, ds: seq<BarDocset>)
    ensures ParentsOk(GroupedBarNodes(adminUrl, ds), BarMenuId)
    decreases |ds|
  {
    if |ds| > 0 {
      var id := DocsetNodeId(ds[0].key);
      var head := DocsetHead(adminUrl, ds[0]);
      GroupedBarParentsComeFirst(adminUrl, ds[1..]);
      match ds[0].toc {
        case None =>
          ParentsOkConcat(head, [], GroupedBarNodes(adminUrl, ds[1..]), BarMenuId);
        case Some(toc) =>
          ParentsComeFirst(adminUrl, ds[0].key, id, toc);
          ParentsOkConcat(head, BarNodes(adminUrl, ds[0].key, id, toc), GroupedBarNodes(adminUrl, ds[1..]), BarMenuId);
      }
    }
  }

  /** Every node of `r` hangs under an id that starts with the node prefix. */
  predicate HangsUnderNodes(r: seq<BarNode>) {
    forall k :: 0 <= k < |r| ==> StartsWith(r[k].parent, NodePrefix)
  }

  lemma HangsUnderNodesConcat(head: BarNode, sub: seq<BarNode>, tail: seq<BarNode>)
    requires StartsWith(head.parent, NodePrefix)
    requires HangsUnderNodes(sub) && HangsUnderNodes(tail)
    ensures HangsUnderNodes([head] + sub + tail)
  {
    var r := [head] + sub + tail;
    forall k | 0 <= k < |r|
      ensures StartsWith(r[k].parent, NodePrefix)
    {
      if k == 0 {
      } else if k <= |sub| {
        assert r[k] == sub[k - 1];
      } else {
        assert r[k] == tail[k - 1 - |sub|];
      }
    }
  }

  /** Every node of a TOC hangs under an id with the node prefix, when the
      docset's own node does. */
  lemma {:induction false} BarParentsAreNodeIds(adminUrl: TocRender.AdminUrl, docset: string, parentId: string, ns: seq<Node>)
    requires StartsWith(parentId, NodePrefix)
    ensures HangsUnderNodes(BarNodes(adminUrl, docset, parentId, ns))
    decreases ns
  {
    if |ns| > 0 {
      assert ns[0] in ns;
      var id := NodeId(docset, ns[0].src);
      var head := BarNode(id, parentId, ns[0].title, TocRender.PageLink(adminUrl, docset, ns[0].src));
      var sub := BarNodes(adminUrl, docset, id, Kids(ns[0]));
      BarNodesCons(adminUrl, docset, parentId, ns);
      BarParentsAreNodeIds(adminUrl, docset, parentId, ns[1..]);
      match ns[0].children {
        case Absent =>
          assert HangsUnderNodes(sub) by { assert sub == []; }
        case Present(cs) =>
          BarParentsAreNodeIds(adminUrl, docset, id, cs);
      }
      HangsUnderNodesConcat(head, sub, BarNodes(adminUrl, docset, parentId, ns[1..]));
    }
  }


  /** `node` is the own node of one of the docsets `ds`. */
  predicate IsDocsetHead(adminUrl: TocRender.AdminUrl, ds: seq<BarDocset>, node: BarNode) {
    exists i :: 0 <= i < |ds| && node == DocsetHead(adminUrl, ds[i])
  }

  /** Every node of `r` directly under "Plugin Docs" is a docset's own node. */
  predicate OnlyHeadsUnderMenu(adminUrl: TocRender.AdminUrl, ds: seq<BarDocset>, r: seq<BarNode>) {
    forall k :: 0 <= k < |r| && r[k].parent == BarMenuId ==> IsDocsetHead(adminUrl, ds, r[k])
  }

  lemma OnlyHeadsConcat(adminUrl: TocRender.AdminUrl, ds: seq<BarDocset>, sub: seq<BarNode>, rest: seq<BarNode>)
    requires |ds| > 0
    requires HangsUnderNodes(sub)
    requires OnlyHeadsUnderMenu(adminUrl, ds[1..], rest)
    ensures OnlyHeadsUnderMenu(adminUrl, ds, [DocsetHead(adminUrl, ds[0])] + sub + rest)
  {
    var r := [DocsetHead(adminUrl, ds[0])] + sub + rest;
    assert !StartsWith(BarMenuId, NodePrefix) by {
      assert BarMenuId[10] != NodePrefix[10];
    }
    forall k | 0 <= k < |r|
      ensures r[k].parent == BarMenuId ==> IsDocsetHead(adminUrl, ds, r[k])
    {
      if k == 0 {
        assert r[k] == DocsetHead(adminUrl, ds[0]);
      } else if k <= |sub| {
        assert r[k] == sub[k - 1];
      } else if r[k].parent == BarMenuId {
        assert r[k] == rest[k - 1 - |sub|];
        var i :| 0 <= i < |ds[1..]| && r[k] == DocsetHead(adminUrl, ds[1..][i]);
        assert ds[1..][i] == ds[i + 1];
      }
    }
  }

  /** Directly under "Plugin Docs" hang exactly the docsets' own nodes: TOC
      entries always hang under a docset or another entry. */
  lemma {:induction false} OnlyDocsetsUnderPluginDocs(adminUrl: TocRender.AdminUrl, ds: seq<BarDocset>)
    ensures OnlyHeadsUnderMenu(adminUrl, ds, GroupedBarNodes(adminUrl, ds))
    decreases |ds|
  {
    if |ds| > 0 {
      var id := DocsetNodeId(ds[0].key);
      var sub := match ds[0].toc
                 case None => []
                 case Some(toc) => BarNodes(adminUrl, ds[0].key, id, toc);
      if ds[0].toc.Some? {
        BarParentsAreNodeIds(adminUrl, ds[0].key, id, ds[0].toc.value);
      }
      OnlyDocsetsUnderPluginDocs(adminUrl, ds[1..]);
      OnlyHeadsConcat(adminUrl, ds, sub, GroupedBarNodes(adminUrl, ds[1..]));
    }
  }
}

=== FILE: request.dfy ===
/** Docset and page selection (lines 84-114), from an explicit request
    record instead of `$_GET`/`$_POST`, and the normalisation of each
    docset's directory and URL (lines 57-59). */
module Request {
  import opened Wrappers
  import opened Strings

  /** The request parameters the selection reads; `None` when unset. */
  datatype Request = Request(
    getPage: Option<string>,
    getDocSet: Option<string>,
    postDocSet: Option<string>,
    getDocPage: Option<string>,
    postDocPage: Option<string>)

  /** The prefix of the admin menu slugs, `ilab-docs-<docset>`. */
  const MenuPrefix: string := "ilab-docs-"

  /** Lines 84-98: the docset the request names, if any. A `page` parameter
      starting with the menu prefix wins (with every copy of the prefix
      removed); otherwise `doc-set` from the query, then from the form. */
  function RequestedDocset(req: Request): (r: Option<string>)
    ensures var fromMenu := req.getPage.Some? && StartsWith(req.getPage.value, MenuPrefix);
      && (fromMenu ==> r == Some(RemoveAll(req.getPage.value, MenuPrefix)))
      && (!fromMenu && req.getDocSet.Some? ==> r == req.getDocSet)
      && (!fromMenu && req.getDocSet.None? ==> r == req.postDocSet)
      && (r.None? <==> !fromMenu && req.getDocSet.None? && req.postDocSet.None?)
  {
    var fromMenu :=
      match req.getPage
      case Some(p) => if StartsWith(p, MenuPrefix) then Some(RemoveAll(p, MenuPrefix)) else None
      case None => None;
    if fromMenu.Some? then fromMenu
    else if req.getDocSet.Some? then req.getDocSet
    else req.postDocSet
  }

  /** Lines 79-103: with no docsets the plugin bails out (`None`); otherwise
      the requested docset when it exists, else the first one. */
  function SelectDocset(keys: seq<string>, req: Request): (r: Option<string>)
    ensures r.Some? <==> |keys| > 0
    ensures r.Some? ==> r.value in keys
    ensures |keys| > 0 && RequestedDocset(req).Some? && RequestedDocset(req).value in keys ==>
            r == RequestedDocset(req)
    ensures |keys| > 0 && (RequestedDocset(req).None? || RequestedDocset(req).value !in keys) ==>
            r == Some(keys[0])
  {
    if |keys| == 0 then None
    else
      match RequestedDocset(req)
      case Some(d) => if d in keys then Some(d) else Some(keys[0])
      case None => Some(keys[0])
  }

  /** Lines 109-114: `doc-page` from the query, then from the form, else "index". */
  function SelectPage(req: Request): (page: string)
    ensures req.getDocPage.None? && req.postDocPage.None? ==> page == "index"
    ensures req.getDocPage.Some? ==> page == req.getDocPage.value
    ensures req.getDocPage.None? && req.postDocPage.Some? ==> page == req.postDocPage.value
  {
    if req.getDocPage.Some? then req.getDocPage.value
    else if req.postDocPage.Some? then req.postDocPage.value
    else "index"
  }

  /** A menu link `ilab-docs-<key>` selects docset `key`, whatever else the
      request carries, provided the key holds no copy of the prefix. */
  lemma MenuLinkSelectsDocset(keys: seq<string>, key: string, req: Request)
    requires key in keys
    requires !Contains(key, MenuPrefix)
    requires req.getPage == Some(MenuPrefix + key)
    ensures SelectDocset(keys, req) == Some(key)
  {
    assert StartsWith(MenuPrefix + key, MenuPrefix);
    RemoveAllPrefix(key, MenuPrefix);
    RemoveAllAbsent(key, MenuPrefix);
  }

  /** Line 58: the directory with exactly one separator at each end; what
      lies between is the directory with only separators cut from its ends,
      so a directory that has none at either end is kept whole. */
  function NormalizeDir(dir: string): (r: string)
    ensures |r| >= 2 && r[0] == Sep && r[|r| - 1] == Sep
    ensures |r| > 2 ==> r[1] != Sep && r[|r| - 2] != Sep
    ensures exists i, j :: CutOnly(dir, Sep, i, j) && r == [Sep] + dir[i..j] + [Sep]
    ensures |dir| == 0 || (dir[0] != Sep && dir[|dir| - 1] != Sep) ==> r == [Sep] + dir + [Sep]
  {
    if |dir| == 0 || (dir[0] != Sep && dir[|dir| - 1] != Sep) then
      TrimNoop(dir, Sep);
      [Sep] + Trim(dir, Sep) + [Sep]
    else
      [Sep] + Trim(dir, Sep) + [Sep]
  }

  /** Line 59: the URL with one trailing slash and no leading one; what
      precedes the slash is the URL with only slashes cut from its ends. */
  function NormalizeUrl(url: string): (r: string)
    ensures |r| >= 1 && r[|r| - 1] == '/'
    ensures |r| > 1 ==> r[0] != '/' && r[|r| - 2] != '/'
    ensures exists i, j :: CutOnly(url, '/', i, j) && r == url[i..j] + "/"
    ensures |url| == 0 || (url[0] != '/' && url[|url| - 1] != '/') ==> r == url + "/"
  {
    if |url| == 0 || (url[0] != '/' && url[|url| - 1] != '/') then
      TrimNoop(url, '/');
      Trim(url, '/') + "/"
    else
      Trim(url, '/') + "/"
  }

  lemma TrimOfWrapped(t: string, c: char)
    requires |t| == 0 || (t[0] != c && t[|t| - 1] != c)
    ensures Trim([c] + t + [c], c) == t
  {
    var w := [c] + t + [c];
    assert w[..|w| - 1] == [c] + t;
    assert TrimRight(w, c) == TrimRight([c] + t, c);
    if |t| == 0 {
      assert [c] + t == [c];
      assert TrimRight([c], c) == TrimRight([], c);
    } else {
      assert TrimRight([c] + t, c) == [c] + t;
    }
    assert TrimLeft([c] + t, c) == TrimLeft(t, c);
  }

  /** Normalising a directory twice is normalising it once. */
  lemma NormalizeDirIdempotent(dir: string)
    ensures NormalizeDir(NormalizeDir(dir)) == NormalizeDir(dir)
  {
    TrimOfWrapped(Trim(dir, Sep), Sep);
  }

  /** Normalising a URL twice is normalising it once. */
  lemma NormalizeUrlIdempotent(url: string)
    ensures NormalizeUrl(NormalizeUrl(url)) == NormalizeUrl(url)
  {
    var t := Trim(url, '/');
    var w := t + "/";
    assert w[..|w| - 1] == t;
    if |t| == 0 {
      assert TrimRight(w, '/') == TrimRight([], '/');
    } else {
      assert TrimRight(w, '/') == t;
    }
    TrimNoop(t, '/');
  }
}

=== FILE: roundtrip.dfy ===
/** Properties that follow a document through several parts of the system:
    the walk that `wp docs toc` performs, the tree it writes, the lookups
    the admin pages run against that tree, and the search results page. */
module RoundTrip {
  import opened Wrappers
  import opened Strings
  import opened TocTree
  import opened Structure
  import opened TocBuilder
  import opened TocQueries
  import opened SearchHits
  import opened Commands

  /** Every file of the top-level group is found by the admin page lookup
      under its slug. */
  lemma {:induction false} TopLevelFileFound(g: Group, headings: HeadingOracle, i: nat)
    requires i < |g.files|
    ensures var toc := StructureToToc("", g, headings);
      EntryFor(toc, Stem(g.files[i])).Some? && EntryFor(toc, Stem(g.files[i])).value.src == Stem(g.files[i])
  {
    var toc := StructureToToc("", g, headings);
    ElementInPreOrder(toc, i);
    assert toc[i].src == Stem(g.files[i]);
    assert Stem(g.files[i]) in Srcs(toc);
    EntryForFindsEverySrc(toc, Stem(g.files[i]));
  }

  /** A file inside a directory is found under `<dir>/<slug>` when the
      directory has a same-named file beside it. */
  lemma {:induction false} NestedFileFound(g: Group, headings: HeadingOracle, i: nat, j: nat, f: nat)
    requires i < |g.files| && j < |g.dirs|
    requires DirIndex(g.dirs, Stem(g.files[i])) == Some(j)
    requires f < |g.dirs[j].body.files|
    ensures var x := Stem(g.files[i]) + [Sep] + Stem(g.dirs[j].body.files[f]);
      EntryFor(StructureToToc("", g, headings), x).Some?
  {
    var toc := StructureToToc("", g, headings);
    var src := Stem(g.files[i]);
    var sub := StructureToToc(src + [Sep], g.dirs[j].body, headings);
    var x := src + [Sep] + Stem(g.dirs[j].body.files[f]);
    KidsOfBuilt("", g, headings, i);
    assert "" + src == src;
    assert Kids(toc[i]) == sub;
    assert sub[f].src == x;
    ElementInPreOrder(toc, i);
    assert sub[f] in Kids(toc[i]);
    ChildrenInPreOrder(toc[i], sub[f], toc);
    EntryForFindsEverySrc(toc, x);
  }

  /** An element of a list is in its pre-order. */
  lemma ElementInPreOrder(ns: seq<Node>, i: nat)
    requires i < |ns|
    ensures ns[i] in PreOrder(ns)
  {
    InPreOrder(ns[i], ns);
  }

  /** A markdown file placed directly in the docs directory ends up in the
      tree that `wp docs toc` writes, under its slug. */
  lemma {:induction false} RootPageListed(d: Docroot, headings: HeadingOracle, file: string)
    requires Admitted(DocsDirectory(d) + file)
    requires Sep !in file && !Contains(file, DocsDirectory(d))
    ensures var d' := d.(walk := d.walk + [DocsDirectory(d) + file]);
      EntryFor(BuiltToc(d', headings), Stem(file)).Some?
  {
    var dir := DocsDirectory(d);
    var path := dir + file;
    var d' := d.(walk := d.walk + [path]);
    RemoveAllPrefix(file, dir);
    RemoveAllAbsent(file, dir);
    SplitWithoutSeparator(file, Sep);
    assert Split(RemoveAll(path, dir), Sep) == [file];
    AdmittedPathLands(dir, d.walk, path, []);
    var g := Build(dir, d'.walk);
    assert FilesAt(g, []) == FilesAt(Build(dir, d.walk), []) + [file];
    assert Lookup(g, []) == Some(g);
    assert g.files[|g.files| - 1] == file;
    TopLevelFileFound(g, headings, |g.files| - 1);
  }

  /** A page at the docs root that both commands processed is shown by the
      search page when the search library returns it: the directory the
      index records is the one the toc was built from, so stripping it and
      ".md" from the hit gives the slug the builder gave the file. */
  lemma RootPageSearchable(d: Docroot, headings: HeadingOracle, file: string)
    requires d.hasIndexMd && d.hasConfigJson
    requires Admitted(DocsDirectory(d) + file)
    requires Sep !in file && !Contains(file, DocsDirectory(d))
    ensures var d' := d.(walk := d.walk + [DocsDirectory(d) + file]);
      var toc := BuiltToc(d', headings);
      && IndexCommand(d').effects[|IndexCommand(d').effects| - 1] == RecordSourceDir(DocsDirectory(d))
      && HitSlug(DocsDirectory(d), DocsDirectory(d) + file) == Stem(file)
      && EntryFor(toc, Stem(file)).Some?
      && SearchResults(toc, Some(DocsDirectory(d)), [DocsDirectory(d) + file])
         == Results([EntryFor(toc, Stem(file)).value])
  {
    var dir := DocsDirectory(d);
    var d' := d.(walk := d.walk + [dir + file]);
    assert DocsDirectory(d') == dir;
    RootPageListed(d, headings, file);
    HitOfDocument(dir, file);
    SingleHit(BuiltToc(d', headings), dir, dir + file);
  }
}

=== FILE: search_hits.dfy ===
/** Turning search hits into TOC entries (lines 428-456). The ranking itself
    belongs to the search library and is an input here: `hits` are the
    absolute document paths in the order the library ranked them. */
module SearchHits {
  import opened Wrappers
  import opened Strings
  import opened TocTree
  import opened TocQueries


  /** Line 451: every occurrence of the indexed source directory removed,
      then every ".md". */
  function HitSlug(sourceDir: string, path: string): (r: string)
    ensures |r| <= |path|
  {
    RemoveAll(RemoveAll(path, sourceDir), MdExt)
  }

  /** The hit for a document `file` of the indexed directory has the slug the
      TOC builder gives that file (every ".md" removed), as long as the
      directory's own path does not recur inside the file name. */
  lemma HitOfDocument(sourceDir: string, file: string)
    requires |sourceDir| > 0
    requires !Contains(file, sourceDir)
    ensures HitSlug(sourceDir, sourceDir + file) == RemoveAll(file, MdExt)
  {
    RemoveAllPrefix(file, sourceDir);
    RemoveAllAbsent(file, sourceDir);
  }

  /** A single hit that resolves yields exactly its own entry. */
  lemma SingleHit(toc: seq<Node>, sourceDir: string, hit: string)
    requires Resolves(toc, sourceDir, hit)
    ensures HitEntries(toc, sourceDir, [hit]) == [EntryFor(toc, HitSlug(sourceDir, hit)).value]
  {
    assert HitEntries(toc, sourceDir, [hit]) ==
           [EntryFor(toc, HitSlug(sourceDir, hit)).value] + EntriesFrom(toc, sourceDir, [hit], 1);
  }

  /** Lines 449-456: the TOC entry of each hit whose slug is in the TOC, in
      hit order; other hits are dropped. */
  function HitEntries(toc: seq<Node>, sourceDir: string, hits: seq<string>): (r: seq<Node>)
    ensures |r| <= |hits|
    ensures forall k :: 0 <= k < |r| ==> r[k] in PreOrder(toc)
  {
    EntriesFrom(toc, sourceDir, hits, 0)
  }

  /** The loop of lines 450-456 from hit `i` on. */
  function EntriesFrom(toc: seq<Node>, sourceDir: string, hits: seq<string>, i: nat): (r: seq<Node>)
    requires i <= |hits|
    ensures |r| <= |hits| - i
    ensures forall k :: 0 <= k < |r| ==> r[k] in PreOrder(toc)
    decreases |hits| - i
  {
    if i == |hits| then []
    else
      var rest := EntriesFrom(toc, sourceDir, hits, i + 1);
      match EntryFor(toc, HitSlug(sourceDir, hits[i]))
      case None => rest
      case Some(e) =>
        EntryForFindsEverySrc(toc, HitSlug(sourceDir, hits[i]));
        [e] + rest
  }

  predicate Resolves(toc: seq<Node>, sourceDir: string, hit: string) {
    EntryFor(toc, HitSlug(sourceDir, hit)).Some?
  }

  /** The positions, from `i` on, of the hits that survive. */
  function KeptFrom(toc: seq<Node>, sourceDir: string, hits: seq<string>, i: nat): (idx: seq<nat>)
    requires i <= |hits|
    ensures forall k :: 0 <= k < |idx| ==> i <= idx[k] < |hits|
    ensures forall a, b :: 0 <= a < b < |idx| ==> idx[a] < idx[b]
    decreases |hits| - i
  {
    if i == |hits| then []
    else
      var rest := KeptFrom(toc, sourceDir, hits, i + 1);
      if Resolves(toc, sourceDir, hits[i]) then [i] + rest else rest
  }

  /** The result is exactly the entries of the hits that resolve, in hit
      order: the kept positions increase, each kept hit yields its entry,
      and every hit left out has no entry. */
  lemma HitEntriesCharacterised(toc: seq<Node>, sourceDir: string, hits: seq<string>)
    ensures var r := HitEntries(toc, sourceDir, hits);
      var idx := KeptFrom(toc, sourceDir, hits, 0);
      && |idx| == |r|
      && (forall a, b :: 0 <= a < b < |idx| ==> idx[a] < idx[b])
      && (forall k :: 0 <= k < |idx| ==>
            EntryFor(toc, HitSlug(sourceDir, hits[idx[k]])) == Some(r[k]))
      && (forall i :: 0 <= i < |hits| && i !in idx ==> !Resolves(toc, sourceDir, hits[i]))
  {
    EntriesFromCharacterised(toc, sourceDir, hits, 0);
  }

  lemma {:induction false} EntriesFromCharacterised(toc: seq<Node>, sourceDir: string, hits: seq<string>, i: nat)
    requires i <= |hits|
    ensures var r := EntriesFrom(toc, sourceDir, hits, i);
      var idx := KeptFrom(toc, sourceDir, hits, i);
      && |idx| == |r|
      && (forall k :: 0 <= k < |idx| ==>
            EntryFor(toc, HitSlug(sourceDir, hits[idx[k]])) == Some(r[k]))
      && (forall j :: i <= j < |hits| && j !in idx ==> !Resolves(toc, sourceDir, hits[j]))
    decreases |hits| - i
  {
    if i < |hits| {
      EntriesFromCharacterised(toc, sourceDir, hits, i + 1);
      var rest := EntriesFrom(toc, sourceDir, hits, i + 1);
      var restIdx := KeptFrom(toc, sourceDir, hits, i + 1);
      var r := EntriesFrom(toc, sourceDir, hits, i);
      var idx := KeptFrom(toc, sourceDir, hits, i);
      assert i !in restIdx;
      if Resolves(toc, sourceDir, hits[i]) {
        var e := EntryFor(toc, HitSlug(sourceDir, hits[i])).value;
        assert r == [e] + rest;
        assert idx == [i] + restIdx;
        forall k | 0 <= k < |idx|
          ensures EntryFor(toc, HitSlug(sourceDir, hits[idx[k]])) == Some(r[k])
        {
          if k > 0 {
            assert idx[k] == restIdx[k - 1] && r[k] == rest[k - 1];
          }
        }
      } else {
        assert r == rest && idx == restIdx;
      }
    }
  }

  /** A hit for a document of the indexed directory whose slug is in the TOC
      is found again: stripping the directory and ".md" recovers the slug. */
  lemma IndexedDocumentResolves(toc: seq<Node>, sourceDir: string, slug: string)
    requires |sourceDir| > 0
    requires !Contains(slug, MdExt)
    requires !Contains(slug + MdExt, sourceDir)
    requires slug in Srcs(toc)
    ensures EntryFor(toc, slug).Some?
    ensures HitSlug(sourceDir, sourceDir + slug + MdExt) == slug
    ensures HitEntries(toc, sourceDir, [sourceDir + slug + MdExt]) == [EntryFor(toc, slug).value]
  {
    assert sourceDir + slug + MdExt == sourceDir + (slug + MdExt);
    RemoveAllPrefix(slug + MdExt, sourceDir);
    RemoveAllAbsent(slug + MdExt, sourceDir);
    StripMdSuffix(slug);
    EntryForFindsEverySrc(toc, slug);
    assert HitEntries(toc, sourceDir, [sourceDir + slug + MdExt]) ==
           [EntryFor(toc, slug).value] + EntriesFrom(toc, sourceDir, [sourceDir + slug + MdExt], 1);
  }

  /** Removing ".md" from a slug followed by ".md" gives back the slug, when
      the slug itself holds no ".md". */
  lemma {:induction false} StripMdSuffix(slug: string)
    requires !Contains(slug, MdExt)
    ensures RemoveAll(slug + MdExt, MdExt) == slug
    decreases |slug|
  {
    var s := slug + MdExt;
    if |slug| == 0 {
      assert s == MdExt;
      assert StartsWith(s, MdExt);
      assert s[|MdExt|..] == [];
    } else {
      assert s[|slug|] == '.';
      assert !StartsWith(s, MdExt) by {
        if |slug| >= 3 {
          assert s[..3] == slug[..3];
          assert !OccursAt(slug, MdExt, 0);
        } else {
          assert s[..3][|slug|] == '.';
        }
      }
      assert !Contains(slug[1..], MdExt);
      StripMdSuffix(slug[1..]);
      assert s[1..] == slug[1..] + MdExt;
      assert slug == [slug[0]] + slug[1..];
    }
  }

  /** What the search page shows: a distinct outcome when the index has no
      recorded source directory (lines 429-432), the entries otherwise. */
  datatype SearchPage = IndexCorruptOrMissing | Results(entries: seq<Node>)

  function SearchResults(toc: seq<Node>, recordedSourceDir: Option<string>, hits: seq<string>): (r: SearchPage)
    ensures r.IndexCorruptOrMissing? <==> recordedSourceDir.None?
    ensures r.Results? ==> |r.entries| <= |hits|
    ensures recordedSourceDir.Some? ==> r == Results(HitEntries(toc, recordedSourceDir.value, hits))
    ensures recordedSourceDir.Some? ==>
      var dir := recordedSourceDir.value;
      var idx := KeptFrom(toc, dir, hits, 0);
      && |idx| == |r.entries|
      && (forall k :: 0 <= k < |idx| ==> EntryFor(toc, HitSlug(dir, hits[idx[k]])) == Some(r.entries[k]))
      && (forall i :: 0 <= i < |hits| && i !in idx ==> !Resolves(toc, dir, hits[i]))
  {
    match recordedSourceDir
    case None => IndexCorruptOrMissing
    case Some(dir) =>
      HitEntriesCharacterised(toc, dir, hits);
      Results(HitEntries(toc, dir, hits))
  }
}

=== FILE: strings.dfy ===
/** The PHP string primitives the core relies on, over `seq<char>`:
    `strpos`, `str_replace`, `explode`, `trim`, and prefix tests. */
module Strings {
  import opened Wrappers

  /** The directory separator (`DIRECTORY_SEPARATOR` on a Unix host). */
  const Sep: char := '/'

  /** The extension of every documentation page. */
  const MdExt: string := ".md"

  predicate StartsWith(s: string, p: string) {
    |p| <= |s| && s[..|p|] == p
  }

  /** `p` occurs in `s` starting at index `i`. */
  predicate OccursAt(s: string, p: string, i: int) {
    0 <= i && i + |p| <= |s| && s[i..i + |p|] == p
  }

  /** `strpos(s, p)`: the index of the first occurrence of `p` in `s`. */
  function IndexOf(s: string, p: string): (r: Option<nat>)
    ensures r.Some? ==> OccursAt(s, p, r.value)
    ensures r.Some? ==> forall j :: 0 <= j < r.value ==> !OccursAt(s, p, j)
    ensures r.None? ==> forall j :: 0 <= j <= |s| ==> !OccursAt(s, p, j)
    decreases |s|
  {
    if StartsWith(s, p) then Some(0)
    else if |s| == 0 then None
    else
      match IndexOf(s[1..], p)
      case None =>
        assert forall j :: 1 <= j <= |s| ==> (OccursAt(s, p, j) <==> OccursAt(s[1..], p, j - 1));
        None
      case Some(k) =>
        assert forall j :: 1 <= j <= |s| ==> (OccursAt(s, p, j) <==> OccursAt(s[1..], p, j - 1));
        Some(k + 1)
  }

  predicate Contains(s: string, p: string) {
    IndexOf(s, p).Some?
  }

  /** `str_replace(p, '', s)`: every occurrence of `p`, found left to right
      without overlap, is removed, so what is removed is whole copies of `p`.
      PHP leaves `s` unchanged for an empty `p`. */
  function RemoveAll(s: string, p: string): (r: string)
    ensures |r| <= |s|
    ensures |p| == 0 ==> r == s
    ensures MultipleOf(|s| - |r|, |p|)
    decreases |s|
  {
    if |p| == 0 || |s| == 0 then s
    else if StartsWith(s, p) then RemoveAll(s[|p|..], p)
    else [s[0]] + RemoveAll(s[1..], p)
  }

  /** `n` is a sum of copies of `m`. */
  predicate MultipleOf(n: nat, m: nat)
    decreases n
  {
    n == 0 || (0 < m <= n && MultipleOf(n - m, m))
  }

  /** `str_replace(c, d, s)` for single characters. */
  function ReplaceChar(s: string, c: char, d: char): (r: string)
    ensures |r| == |s|
    ensures forall i :: 0 <= i < |s| ==> r[i] == (if s[i] == c then d else s[i])
  {
    seq(|s|, i requires 0 <= i < |s| => if s[i] == c then d else s[i])
  }

  /** `explode(c, s)`: the pieces between separators; always at least one. */
  function Split(s: string, c: char): (parts: seq<string>)
    ensures |parts| >= 1
    ensures forall k :: 0 <= k < |parts| ==> c !in parts[k]
    decreases |s|
  {
    if |s| == 0 then [""]
    else if s[0] == c then [""] + Split(s[1..], c)
    else
      var rest := Split(s[1..], c);
      [[s[0]] + rest[0]] + rest[1..]
  }

  /** A string without the separator splits into itself alone. */
  lemma {:induction false} SplitWithoutSeparator(s: string, c: char)
    requires c !in s
    ensures Split(s, c) == [s]
    decreases |s|
  {
    if |s| > 0 {
      assert s[0] != c;
      SplitWithoutSeparator(s[1..], c);
      assert s == [s[0]] + s[1..];
    }
  }

  /** `implode(c, parts)`. */
  function Join(parts: seq<string>, c: char): string
    requires |parts| >= 1
    decreases |parts|
  {
    if |parts| == 1 then parts[0] else parts[0] + [c] + Join(parts[1..], c)
  }

  /** Splitting and joining back on the same separator gives the original string. */
  lemma {:induction false} JoinSplit(s: string, c: char)
    ensures Join(Split(s, c), c) == s
    decreases |s|
  {
    if |s| == 0 {
    } else if s[0] == c {
      JoinSplit(s[1..], c);
      assert s == [c] + s[1..];
    } else {
      JoinSplit(s[1..], c);
      var rest := Split(s[1..], c);
      if |rest| == 1 {
        assert s == [s[0]] + s[1..];
      } else {
        assert Join(rest, c) == rest[0] + [c] + Join(rest[1..], c);
        assert s == [s[0]] + s[1..];
      }
    }
  }

  /** `ltrim(s, c)`: leading copies of `c` removed. */
  function TrimLeft(s: string, c: char): (r: string)
    ensures |r| == 0 || r[0] != c
    decreases |s|
  {
    if |s| > 0 && s[0] == c then TrimLeft(s[1..], c) else s
  }

  /** `rtrim(s, c)`: trailing copies of `c` removed. */
  function TrimRight(s: string, c: char): (r: string)
    ensures |r| == 0 || r[|r| - 1] != c
    decreases |s|
  {
    if |s| > 0 && s[|s| - 1] == c then TrimRight(s[..|s| - 1], c) else s
  }

  /** `s[i..j]` is what remains of `s` after cutting only copies of `c`
      from its two ends. */
  predicate CutOnly(s: string, c: char, i: int, j: int) {
    && 0 <= i <= j <= |s|
    && (forall k :: 0 <= k < i ==> s[k] == c)
    && (forall k :: j <= k < |s| ==> s[k] == c)
  }

  /** `trim(s, c)`: the middle of `s` left after removing copies of `c` at
      either end, and no copy of `c` remains at either end. */
  function Trim(s: string, c: char): (r: string)
    ensures exists i, j :: CutOnly(s, c, i, j) && r == s[i..j]
    ensures |r| == 0 || (r[0] != c && r[|r| - 1] != c)
  {
    TrimLeftKeepsRightEnd(TrimRight(s, c), c);
    TrimSlice(s, c);
    TrimLeft(TrimRight(s, c), c)
  }

  /** How many leading copies of `c` `TrimLeft` cuts. */
  lemma {:induction false} TrimLeftSlice(s: string, c: char) returns (i: nat)
    ensures i <= |s| && TrimLeft(s, c) == s[i..]
    ensures forall k :: 0 <= k < i ==> s[k] == c
    decreases |s|
  {
    if |s| > 0 && s[0] == c {
      var i' := TrimLeftSlice(s[1..], c);
      i := i' + 1;
      assert s[1..][i'..] == s[i..];
      forall k | 0 <= k < i
        ensures s[k] == c
      {
        if k > 0 { assert s[k] == s[1..][k - 1]; }
      }
    } else {
      i := 0;
    }
  }

  /** Where the text `TrimRight` keeps ends. */
  lemma {:induction false} TrimRightSlice(s: string, c: char) returns (j: nat)
    ensures j <= |s| && TrimRight(s, c) == s[..j]
    ensures forall k :: j <= k < |s| ==> s[k] == c
    decreases |s|
  {
    if |s| > 0 && s[|s| - 1] == c {
      var t := s[..|s| - 1];
      j := TrimRightSlice(t, c);
      assert t[..j] == s[..j];
      forall k | j <= k < |s|
        ensures s[k] == c
      {
        if k < |t| { assert s[k] == t[k]; }
      }
    } else {
      j := |s|;
    }
  }

  lemma CutOnlyOfPrefix(s: string, c: char, i: int, j: int)
    requires 0 <= i <= j <= |s|
    requires forall k :: j <= k < |s| ==> s[k] == c
    requires forall k :: 0 <= k < i ==> s[..j][k] == c
    ensures CutOnly(s, c, i, j) && s[..j][i..] == s[i..j]
  {
    forall k | 0 <= k < i
      ensures s[k] == c
    {
      assert s[..j][k] == c;
    }
  }

  lemma TrimSlice(s: string, c: char)
    ensures exists i, j :: CutOnly(s, c, i, j) && TrimLeft(TrimRight(s, c), c) == s[i..j]
  {
    var j := TrimRightSlice(s, c);
    var i := TrimLeftSlice(s[..j], c);
    CutOnlyOfPrefix(s, c, i, j);
  }

  lemma {:induction false} TrimLeftKeepsRightEnd(s: string, c: char)
    requires |s| == 0 || s[|s| - 1] != c
    ensures var r := TrimLeft(s, c); |r| == 0 || r[|r| - 1] != c
    decreases |s|
  {
    if |s| > 0 && s[0] == c {
      TrimLeftKeepsRightEnd(s[1..], c);
    }
  }

  /** Trimming a string that neither starts nor ends with `c` changes nothing. */
  lemma TrimNoop(s: string, c: char)
    requires |s| == 0 || (s[0] != c && s[|s| - 1] != c)
    ensures Trim(s, c) == s
  {
  }

  /** A string without an occurrence of `p` is left unchanged by `RemoveAll`. */
  lemma {:induction false} RemoveAllAbsent(s: string, p: string)
    requires !Contains(s, p)
    ensures RemoveAll(s, p) == s
    decreases |s|
  {
    if |p| == 0 || |s| == 0 {
    } else {
      assert !OccursAt(s, p, 0);
      RemoveAllAbsent(s[1..], p);
      assert s == [s[0]] + s[1..];
    }
  }

  /** Removing a leading occurrence: `RemoveAll(p + s, p) == RemoveAll(s, p)`. */
  lemma RemoveAllPrefix(s: string, p: string)
    requires |p| > 0
    ensures RemoveAll(p + s, p) == RemoveAll(s, p)
  {
    assert StartsWith(p + s, p);
    assert (p + s)[|p|..] == s;
  }

  /** Text before the first copy of the needle is kept as it is, that copy is
      removed, and the scan resumes after it. */
  lemma {:induction false} RemoveAllFirstCopy(a: string, p: string, b: string)
    requires |p| > 0
    requires forall j :: 0 <= j < |a| ==> !OccursAt(a + p + b, p, j)
    ensures RemoveAll(a + p + b, p) == a + RemoveAll(b, p)
    decreases |a|
  {
    if |a| == 0 {
      assert a + p + b == p + b;
      RemoveAllPrefix(b, p);
    } else {
      var s := a + p + b;
      var t := a[1..] + p + b;
      assert s == [a[0]] + t;
      assert !OccursAt(s, p, 0);
      forall j | 0 <= j < |a[1..]|
        ensures !OccursAt(t, p, j)
      {
        assert !OccursAt(s, p, j + 1);
        assert s[j + 1..j + 1 + |p|] == t[j..j + |p|];
      }
      RemoveAllFirstCopy(a[1..], p, b);
      assert RemoveAll(s, p) == [a[0]] + RemoveAll(t, p);
      assert a == [a[0]] + a[1..];
    }
  }
}

=== FILE: structure.dfy ===
/** The directory "structure" the `toc` command folds the docset's markdown
    paths into before turning it into TOC nodes. Each group keeps its files
    in encounter order and its subdirectories, keyed by name, in creation
    order. */
module Structure {
  import opened Wrappers
  import opened Strings

  datatype Group = Group(files: seq<string>, dirs: seq<Subdir>)
  datatype Subdir = Subdir(name: string, body: Group)

  const Empty: Group := Group([], [])

  /** The position of the subdirectory called `name` (`isset($current[$name])`). */
  function DirIndex(dirs: seq<Subdir>, name: string): (r: Option<nat>)
    ensures r.Some? ==> r.value < |dirs| && dirs[r.value].name == name
    ensures r.Some? ==> forall j :: 0 <= j < r.value ==> dirs[j].name != name
    ensures r.None? <==> forall j :: 0 <= j < |dirs| ==> dirs[j].name != name
  {
    if |dirs| == 0 then None
    else if dirs[0].name == name then Some(0)
    else
      match DirIndex(dirs[1..], name)
      case None => None
      case Some(k) => Some(k + 1)
  }

  /** The names of a group's subdirectories, in order. */
  function Names(dirs: seq<Subdir>): (r: seq<string>)
    ensures |r| == |dirs|
    ensures forall j :: 0 <= j < |dirs| ==> r[j] == dirs[j].name
  {
    seq(|dirs|, j requires 0 <= j < |dirs| => dirs[j].name)
  }

  /** No group anywhere holds two subdirectories with the same name. */
  predicate WellFormed(g: Group)
    decreases g
  {
    && (forall i, j :: 0 <= i < j < |g.dirs| ==> g.dirs[i].name != g.dirs[j].name)
    && (forall i :: 0 <= i < |g.dirs| ==> WellFormed(g.dirs[i].body))
  }

  /** The group reached by following `path` from `g`, if every step exists. */
  function Lookup(g: Group, path: seq<string>): Option<Group>
    decreases |path|
  {
    if |path| == 0 then Some(g)
    else
      match DirIndex(g.dirs, path[0])
      case None => None
      case Some(i) => Lookup(g.dirs[i].body, path[1..])
  }

  /** The files directly inside the group at `path`; none if it does not exist. */
  function FilesAt(g: Group, path: seq<string>): seq<string> {
    match Lookup(g, path)
    case None => []
    case Some(h) => h.files
  }

  /** One step of the walk (lines 159-173): descend through `dirs`, creating
      each missing group at the end of its parent and reusing an existing
      one, then append `file` to the innermost group. */
  function Insert(g: Group, dirs: seq<string>, file: string): (r: Group)
    ensures Lookup(r, dirs).Some?
    ensures FilesAt(r, dirs) == FilesAt(g, dirs) + [file]
    decreases |dirs|
  {
    if |dirs| == 0 then g.(files := g.files + [file])
    else
      match DirIndex(g.dirs, dirs[0])
      case Some(i) =>
        var sub := Insert(g.dirs[i].body, dirs[1..], file);
        var r := g.(dirs := g.dirs[i := Subdir(dirs[0], sub)]);
        SameNamesSameIndex(g.dirs, r.dirs, dirs[0]);
        r
      case None =>
        var sub := Insert(Empty, dirs[1..], file);
        var r := g.(dirs := g.dirs + [Subdir(dirs[0], sub)]);
        AppendIndex(g.dirs, Subdir(dirs[0], sub), dirs[0]);
        EmptyHasNoFiles(dirs[1..]);
        r
  }

  /** Inserting touches only the innermost group's file list and creates a
      subdirectory only on first sight, at the end of its parent. */
  lemma InsertShape(g: Group, dirs: seq<string>, file: string)
    ensures var r := Insert(g, dirs, file);
      && (|dirs| == 0 ==> r.files == g.files + [file] && r.dirs == g.dirs)
      && (|dirs| > 0 ==> r.files == g.files)
      && (|dirs| > 0 && dirs[0] in Names(g.dirs) ==> Names(r.dirs) == Names(g.dirs))
      && (|dirs| > 0 && dirs[0] !in Names(g.dirs) ==> Names(r.dirs) == Names(g.dirs) + [dirs[0]])
  {
    if |dirs| > 0 {
      var r := Insert(g, dirs, file);
      match DirIndex(g.dirs, dirs[0])
      case Some(i) =>
        assert dirs[0] in Names(g.dirs) by { assert Names(g.dirs)[i] == dirs[0]; }
        assert Names(r.dirs) == Names(g.dirs);
      case None =>
        assert dirs[0] !in Names(g.dirs);
        assert Names(r.dirs) == Names(g.dirs) + [dirs[0]];
    }
  }

  lemma {:induction false} EmptyHasNoFiles(path: seq<string>)
    ensures FilesAt(Empty, path) == []
  {
  }

  /** Inserting never duplicates a directory: well-formedness is preserved. */
  lemma {:induction false} InsertWellFormed(g: Group, dirs: seq<string>, file: string)
    requires WellFormed(g)
    ensures WellFormed(Insert(g, dirs, file))
    decreases |dirs|
  {
    if |dirs| > 0 {
      match DirIndex(g.dirs, dirs[0])
      case Some(i) =>
        InsertWellFormed(g.dirs[i].body, dirs[1..], file);
      case None =>
        InsertWellFormed(Empty, dirs[1..], file);
    }
  }

  /** Inserting at `dirs` leaves the files of every other group unchanged. */
  lemma {:induction false} InsertFrame(g: Group, dirs: seq<string>, file: string, other: seq<string>)
    requires other != dirs
    ensures FilesAt(Insert(g, dirs, file), other) == FilesAt(g, other)
    decreases |dirs|
  {
    if |dirs| == 0 || |other| == 0 {
    } else if other[0] != dirs[0] {
      InsertFrameSibling(g, dirs, file, other);
    } else {
      assert other == [other[0]] + other[1..] && dirs == [dirs[0]] + dirs[1..];
      match DirIndex(g.dirs, dirs[0])
      case Some(i) =>
        InsertFrame(g.dirs[i].body, dirs[1..], file, other[1..]);
        InsertFrameStep(g, dirs, file, other);
      case None =>
        InsertFrame(Empty, dirs[1..], file, other[1..]);
        EmptyHasNoFiles(other[1..]);
        InsertFrameStep(g, dirs, file, other);
    }
  }

  /** One step of `InsertFrame` down a shared first directory. */
  lemma InsertFrameStep(g: Group, dirs: seq<string>, file: string, other: seq<string>)
    requires |dirs| > 0 && |other| > 0 && other[0] == dirs[0]
    ensures DirIndex(g.dirs, dirs[0]).Some? ==>
      var i := DirIndex(g.dirs, dirs[0]).value;
      && FilesAt(Insert(g, dirs, file), other) == FilesAt(Insert(g.dirs[i].body, dirs[1..], file), other[1..])
      && FilesAt(g, other) == FilesAt(g.dirs[i].body, other[1..])
    ensures DirIndex(g.dirs, dirs[0]).None? ==>
      && FilesAt(Insert(g, dirs, file), other) == FilesAt(Insert(Empty, dirs[1..], file), other[1..])
      && FilesAt(g, other) == []
  {
    var r := Insert(g, dirs, file);
    match DirIndex(g.dirs, dirs[0])
    case Some(i) =>
      SameNamesSameIndex(g.dirs, r.dirs, dirs[0]);
    case None =>
      var sub := Insert(Empty, dirs[1..], file);
      AppendIndex(g.dirs, Subdir(dirs[0], sub), dirs[0]);
  }

  /** A path that leaves `g` through a different subdirectory is unaffected. */
  lemma InsertFrameSibling(g: Group, dirs: seq<string>, file: string, other: seq<string>)
    requires |dirs| > 0 && |other| > 0 && other[0] != dirs[0]
    ensures FilesAt(Insert(g, dirs, file), other) == FilesAt(g, other)
  {
    var r := Insert(g, dirs, file);
    match DirIndex(g.dirs, dirs[0])
    case Some(i) =>
      SameNamesSameIndex(g.dirs, r.dirs, other[0]);
    case None =>
      var sub := Insert(Empty, dirs[1..], file);
      AppendIndex(g.dirs, Subdir(dirs[0], sub), other[0]);
  }

  lemma SameNamesSameIndex(a: seq<Subdir>, b: seq<Subdir>, name: string)
    requires |a| == |b|
    requires forall j :: 0 <= j < |a| ==> a[j].name == b[j].name
    ensures DirIndex(a, name) == DirIndex(b, name)
  {
    match DirIndex(a, name)
    case None =>
    case Some(i) =>
      match DirIndex(b, name)
      case None =>
      case Some(k) =>
        assert !(i < k) && !(k < i);
  }

  /** Looking a name up after appending a subdirectory at the end. */
  lemma AppendIndex(a: seq<Subdir>, d: Subdir, name: string)
    ensures DirIndex(a + [d], name) ==
            if DirIndex(a, name).Some? then DirIndex(a, name)
            else if d.name == name then Some(|a|) else None
  {
    var b := a + [d];
    assert forall j :: 0 <= j < |a| ==> b[j] == a[j];
    match DirIndex(a, name)
    case None =>
      if d.name == name {
        assert b[|a|].name == name;
        var k := DirIndex(b, name).value;
        assert !(k < |a|);
      }
    case Some(i) =>
      match DirIndex(b, name)
      case None =>
      case Some(k) =>
        assert !(i < k) && !(k < i);
  }

  /** Whether the walk admits a path (line 154): `strpos($file, '.md') > 0`,
      i.e. the FIRST occurrence of ".md" exists and is not at index 0. */
  predicate Admitted(path: string)
    ensures Admitted(path) <==> Contains(path, MdExt) && !OccursAt(path, MdExt, 0)
  {
    match IndexOf(path, MdExt)
    case None => false
    case Some(i) => i > 0
  }

  /** Lines 155-158: the docset directory is stripped from the path, the rest
      is split on the separator, and the last piece is the file name. */
  function InsertPath(g: Group, docsDir: string, path: string): (r: Group)
    ensures var parts := Split(RemoveAll(path, docsDir), Sep);
      FilesAt(r, parts[..|parts| - 1]) == FilesAt(g, parts[..|parts| - 1]) + [parts[|parts| - 1]]
    ensures FileCount(r) == FileCount(g) + 1
    ensures WellFormed(g) ==> WellFormed(r)
  {
    var parts := Split(RemoveAll(path, docsDir), Sep);
    InsertCount(g, parts[..|parts| - 1], parts[|parts| - 1]);
    if WellFormed(g) then
      InsertWellFormed(g, parts[..|parts| - 1], parts[|parts| - 1]);
      Insert(g, parts[..|parts| - 1], parts[|parts| - 1])
    else
      Insert(g, parts[..|parts| - 1], parts[|parts| - 1])
  }

  /** The fold of lines 152-175 over the walk, in walk order. The result
      holds exactly one file leaf per admitted path (nothing lost, nothing
      duplicated, rejected paths add nothing) and never two directories of
      the same name in one group. */
  function Build(docsDir: string, walk: seq<string>): (r: Group)
    ensures FileCount(r) == AdmittedCount(walk)
    ensures WellFormed(r)
    decreases |walk|
  {
    if |walk| == 0 then
      assert AdmittedCount(walk) == 0;
      Empty
    else
      var prev := Build(docsDir, walk[..|walk| - 1]);
      var path := walk[|walk| - 1];
      AdmittedCountSnoc(walk);
      if Admitted(path) then InsertPath(prev, docsDir, path) else prev
  }

  /** The number of files in a group and all groups below it. */
  function FileCount(g: Group): nat
    decreases g
  {
    |g.files| + DirsFileCount(g.dirs)
  }

  function DirsFileCount(dirs: seq<Subdir>): nat
    decreases dirs
  {
    if |dirs| == 0 then 0
    else
      assert dirs[0] in dirs;
      FileCount(dirs[0].body) + DirsFileCount(dirs[1..])
  }

  /** The number of paths of `walk` that the walk admits. */
  function AdmittedCount(walk: seq<string>): nat {
    |set i | 0 <= i < |walk| && Admitted(walk[i])|
  }

  lemma {:induction false} DirsCountUpdate(dirs: seq<Subdir>, i: nat, d: Subdir)
    requires i < |dirs|
    ensures DirsFileCount(dirs[i := d]) == DirsFileCount(dirs) - FileCount(dirs[i].body) + FileCount(d.body)
    decreases dirs
  {
    if i > 0 {
      assert dirs[i := d][1..] == dirs[1..][i - 1 := d];
      DirsCountUpdate(dirs[1..], i - 1, d);
    } else {
      assert dirs[i := d][1..] == dirs[1..];
    }
  }

  lemma {:induction false} DirsCountAppend(dirs: seq<Subdir>, d: Subdir)
    ensures DirsFileCount(dirs + [d]) == DirsFileCount(dirs) + FileCount(d.body)
    decreases dirs
  {
    if |dirs| == 0 {
      assert (dirs + [d])[1..] == [];
    } else {
      assert (dirs + [d])[1..] == dirs[1..] + [d];
      DirsCountAppend(dirs[1..], d);
    }
  }

  /** Each insertion adds exactly one file leaf to the whole structure. */
  lemma {:induction false} InsertCount(g: Group, dirs: seq<string>, file: string)
    ensures FileCount(Insert(g, dirs, file)) == FileCount(g) + 1
    decreases |dirs|
  {
    if |dirs| > 0 {
      match DirIndex(g.dirs, dirs[0])
      case Some(i) =>
        var sub := Insert(g.dirs[i].body, dirs[1..], file);
        InsertCount(g.dirs[i].body, dirs[1..], file);
        DirsCountUpdate(g.dirs, i, Subdir(dirs[0], sub));
      case None =>
        var sub := Insert(Empty, dirs[1..], file);
        InsertCount(Empty, dirs[1..], file);
        DirsCountAppend(g.dirs, Subdir(dirs[0], sub));
    }
  }

  lemma AdmittedCountSnoc(walk: seq<string>)
    requires |walk| > 0
    ensures AdmittedCount(walk) ==
            AdmittedCount(walk[..|walk| - 1]) + (if Admitted(walk[|walk| - 1]) then 1 else 0)
  {
    var n := |walk| - 1;
    var init := walk[..n];
    var before := set i | 0 <= i < |init| && Admitted(init[i]);
    var after := set i | 0 <= i < |walk| && Admitted(walk[i]);
    var last := if Admitted(walk[n]) then {n} else {};
    forall i | i in after
      ensures i in before + last
    {
      if i < n {
        assert init[i] == walk[i];
      }
    }
    forall i | i in before + last
      ensures i in after
    {
      if i < n {
        assert init[i] == walk[i];
      }
    }
    assert after == before + last;
    assert n !in before;
  }

  /** A path the walk does not admit leaves the structure unchanged. */
  lemma RejectedPathIgnored(docsDir: string, walk: seq<string>, path: string)
    requires !Admitted(path)
    ensures Build(docsDir, walk + [path]) == Build(docsDir, walk)
  {
    assert (walk + [path])[..|walk|] == walk;
  }

  /** An admitted path's file lands at the end of the group named by its
      directory pieces, and no other group's files change. */
  lemma AdmittedPathLands(docsDir: string, walk: seq<string>, path: string, other: seq<string>)
    requires Admitted(path)
    ensures var parts := Split(RemoveAll(path, docsDir), Sep);
      var dirs := parts[..|parts| - 1];
      && FilesAt(Build(docsDir, walk + [path]), dirs) == FilesAt(Build(docsDir, walk), dirs) + [parts[|parts| - 1]]
      && (other != dirs ==> FilesAt(Build(docsDir, walk + [path]), other) == FilesAt(Build(docsDir, walk), other))
  {
    assert (walk + [path])[..|walk|] == walk;
    var parts := Split(RemoveAll(path, docsDir), Sep);
    var dirs := parts[..|parts| - 1];
    if other != dirs {
      InsertFrame(Build(docsDir, walk), dirs, parts[|parts| - 1], other);
    }
  }
}

=== FILE: titles.dfy ===
/** `extractTitle`: the page title is the text of the first heading at the
    shallowest level among h1..h4. The markdown conversion and DOM query are
    an oracle `headings(level)` giving the text of every `h<level>` element
    in document order. */
module Titles {
  import opened Wrappers

  /** The deepest heading level that is consulted. */
  const MaxLevel: nat := 4

  /** The fallback title the TOC builder substitutes when no heading exists. */
  const Untitled: string := "Untitled"

  /** The scan loop: level `level` and deeper, stopping when the level reaches 5. */
  function ScanFrom(headings: nat -> seq<string>, level: nat): Option<string>
    requires 1 <= level <= MaxLevel + 1
    decreases MaxLevel + 1 - level
  {
    if level == MaxLevel + 1 then None
    else if |headings(level)| == 0 then ScanFrom(headings, level + 1)
    else Some(headings(level)[0])
  }

  /** The first heading at the shallowest non-empty level, or `None` when
      levels 1 to 4 are all empty. */
  function ExtractTitle(headings: nat -> seq<string>): (r: Option<string>)
    ensures r.None? <==> forall l :: 1 <= l <= MaxLevel ==> headings(l) == []
    ensures r.Some? ==>
      exists l :: 1 <= l <= MaxLevel && headings(l) != [] && r.value == headings(l)[0] &&
                  forall m :: 1 <= m < l ==> headings(m) == []
  {
    ScanIsShallowest(headings, 1);
    ScanFrom(headings, 1)
  }

  lemma {:induction false} ScanIsShallowest(headings: nat -> seq<string>, level: nat)
    requires 1 <= level <= MaxLevel + 1
    ensures ScanFrom(headings, level).None? <==>
            forall l :: level <= l <= MaxLevel ==> headings(l) == []
    ensures ScanFrom(headings, level).Some? ==>
      exists l :: level <= l <= MaxLevel && headings(l) != [] &&
                  ScanFrom(headings, level).value == headings(l)[0] &&
                  forall m :: level <= m < l ==> headings(m) == []
    decreases MaxLevel + 1 - level
  {
    if level <= MaxLevel && |headings(level)| == 0 {
      ScanIsShallowest(headings, level + 1);
    }
  }

  /** Headings at level 5 and deeper are never consulted. */
  lemma {:induction false} DeepLevelsIgnored(h1: nat -> seq<string>, h2: nat -> seq<string>)
    requires forall l :: 1 <= l <= MaxLevel ==> h1(l) == h2(l)
    ensures ExtractTitle(h1) == ExtractTitle(h2)
  {
    assert ScanFrom(h1, 5) == ScanFrom(h2, 5);
    assert ScanFrom(h1, 4) == ScanFrom(h2, 4);
    assert ScanFrom(h1, 3) == ScanFrom(h2, 3);
    assert ScanFrom(h1, 2) == ScanFrom(h2, 2);
  }

  /** The title the TOC builder stores: the extracted title or "Untitled". */
  function TitleOrUntitled(headings: nat -> seq<string>): (t: string)
    ensures (forall l :: 1 <= l <= MaxLevel ==> headings(l) == []) ==> t == Untitled
    ensures headings(1) != [] ==> t == headings(1)[0]
    ensures forall l :: 1 <= l <= MaxLevel && headings(l) != [] && (forall m :: 1 <= m < l ==> headings(m) == []) ==>
      t == headings(l)[0]
  {
    ExtractTitle(headings).GetOr(Untitled)
  }
}

=== FILE: toc_builder.dfy ===
/** `structureToTOC`: the directory structure becomes TOC nodes. At each
    level one node per file, in file order; a file heads a subtree only when
    a sibling directory carries its name with ".md" removed. Titles come from
    a heading oracle keyed by the document's docset-relative path. */
module TocBuilder {
  import opened Wrappers
  import opened Strings
  import opened TocTree
  import opened Titles
  import opened Structure

  /** `headings(path, level)`: the text of every `h<level>` heading of the
      document at docset-relative `path`, in document order. */
  type HeadingOracle = (string, nat) -> seq<string>

  /** Line 65: the title of the file at `path`, "Untitled" when it has no h1..h4. */
  function TitleOf(headings: HeadingOracle, path: string): string {
    TitleOrUntitled((l: nat) => headings(path, l))
  }

  /** The slug piece of a file name: every ".md" removed (line 66). */
  function Stem(file: string): string {
    RemoveAll(file, MdExt)
  }

  predicate HasDir(g: Group, name: string) {
    exists j :: 0 <= j < |g.dirs| && g.dirs[j].name == name
  }

  /** The TOC nodes of group `g`, whose documents live under `parent`. */
  function StructureToToc(parent: string, g: Group, headings: HeadingOracle): (r: seq<Node>)
    ensures |r| == |g.files|
    ensures forall i :: 0 <= i < |r| ==> r[i].src == parent + Stem(g.files[i])
    ensures forall i :: 0 <= i < |r| ==> r[i].title == TitleOf(headings, parent + g.files[i])
    ensures forall i :: 0 <= i < |r| ==> (r[i].children.Present? <==> HasDir(g, Stem(g.files[i])))
    decreases g, 1
  {
    seq(|g.files|, i requires 0 <= i < |g.files| => FileNode(parent, g, i, headings))
  }

  /** Lines 65-77 for the `i`-th file of `g`. */
  function FileNode(parent: string, g: Group, i: nat, headings: HeadingOracle): (n: Node)
    requires i < |g.files|
    ensures n.src == parent + Stem(g.files[i])
    ensures n.title == TitleOf(headings, parent + g.files[i])
    ensures n.children.Present? <==> HasDir(g, Stem(g.files[i]))
    ensures n.children.Present? ==>
      var j := DirIndex(g.dirs, Stem(g.files[i])).value;
      n.children.nodes == StructureToToc(n.src + [Sep], g.dirs[j].body, headings)
    decreases g, 0
  {
    var file := g.files[i];
    var src := Stem(file);
    Node(TitleOf(headings, parent + file), parent + src,
         match DirIndex(g.dirs, src)
         case None => Absent
         case Some(j) => Present(StructureToToc(parent + src + [Sep], g.dirs[j].body, headings)))
  }

  /** A node's children are built from the sibling directory of the same
      name, under the node's own slug followed by the separator. */
  lemma ChildrenFromSameNamedDir(parent: string, g: Group, headings: HeadingOracle, i: nat)
    requires i < |g.files|
    ensures var n := StructureToToc(parent, g, headings)[i];
      n.children.Present? ==>
        var j := DirIndex(g.dirs, Stem(g.files[i])).value;
        n.children.nodes == StructureToToc(n.src + [Sep], g.dirs[j].body, headings)
  {
  }

  /** The children of the `i`-th built node, absent ones read as empty. */
  lemma KidsOfBuilt(parent: string, g: Group, headings: HeadingOracle, i: nat)
    requires i < |g.files|
    ensures var src := Stem(g.files[i]);
      Kids(StructureToToc(parent, g, headings)[i]) ==
        match DirIndex(g.dirs, src)
        case None => []
        case Some(j) => StructureToToc(parent + src + [Sep], g.dirs[j].body, headings)
  {
    assert StructureToToc(parent, g, headings)[i] == FileNode(parent, g, i, headings);
  }

  /** Every node anywhere in the built forest has a slug that starts with
      the prefix it was built under. */
  lemma {:induction false} SlugsUnderParent(parent: string, g: Group, headings: HeadingOracle)
    ensures forall n :: n in PreOrder(StructureToToc(parent, g, headings)) ==> StartsWith(n.src, parent)
    decreases g, 1
  {
    var r := StructureToToc(parent, g, headings);
    forall n | n in PreOrder(r)
      ensures StartsWith(n.src, parent)
    {
      InPreOrder(n, r);
      var k :| 0 <= k < |r| && (n == r[k] || n in PreOrder(Kids(r[k])));
      if n == r[k] {
        assert (parent + Stem(g.files[k]))[..|parent|] == parent;
      } else {
        SlugUnderParentBelow(parent, g, headings, k, n);
      }
    }
  }

  lemma {:induction false} SlugUnderParentBelow(parent: string, g: Group, headings: HeadingOracle, k: nat, n: Node)
    requires k < |g.files|
    requires n in PreOrder(Kids(StructureToToc(parent, g, headings)[k]))
    ensures StartsWith(n.src, parent)
    decreases g, 0
  {
    var src := Stem(g.files[k]);
    KidsOfBuilt(parent, g, headings, k);
    match DirIndex(g.dirs, src)
    case Some(j) =>
      var prefix := parent + src + [Sep];
      assert g.dirs[j] in g.dirs;
      SlugsUnderParent(prefix, g.dirs[j].body, headings);
      assert StartsWith(n.src, prefix);
      assert n.src[..|parent|] == prefix[..|parent|];
    case None =>
  }

  /** A subdirectory without a same-named sibling file contributes no nodes,
      and nor does anything below it: removing it changes nothing. */
  lemma {:induction false} OrphanDirContributesNothing(parent: string, g: Group, headings: HeadingOracle, d: nat)
    requires d < |g.dirs|
    requires forall i :: 0 <= i < |g.files| ==> Stem(g.files[i]) != g.dirs[d].name
    ensures StructureToToc(parent, g, headings) ==
            StructureToToc(parent, g.(dirs := g.dirs[..d] + g.dirs[d + 1..]), headings)
  {
    var h := g.(dirs := g.dirs[..d] + g.dirs[d + 1..]);
    var a := StructureToToc(parent, g, headings);
    var b := StructureToToc(parent, h, headings);
    forall i | 0 <= i < |g.files|
      ensures a[i] == b[i]
    {
      RemoveOtherKeepsBody(g.dirs, d, Stem(g.files[i]));
      assert a[i] == FileNode(parent, g, i, headings);
      assert b[i] == FileNode(parent, h, i, headings);
    }
  }

  /** Looking up a name other than the removed entry's finds the same body. */
  lemma RemoveOtherKeepsBody(dirs: seq<Subdir>, d: nat, name: string)
    requires d < |dirs| && dirs[d].name != name
    ensures var rest := dirs[..d] + dirs[d + 1..];
      && DirIndex(rest, name).Some? == DirIndex(dirs, name).Some?
      && (DirIndex(dirs, name).Some? ==>
            rest[DirIndex(rest, name).value].body == dirs[DirIndex(dirs, name).value].body)
  {
    var rest := dirs[..d] + dirs[d + 1..];
    forall j | 0 <= j < |rest|
      ensures rest[j] == dirs[if j < d then j else j + 1]
    {
    }
    match DirIndex(dirs, name)
    case None =>
      assert forall j :: 0 <= j < |rest| ==> rest[j].name != name;
    case Some(i) =>
      var i' := if i < d then i else i - 1;
      assert rest[i'] == dirs[i];
      assert DirIndex(rest, name).Some?;
      var k := DirIndex(rest, name).value;
      var k' := if k < d then k else k + 1;
      assert rest[k] == dirs[k'];
      assert dirs[k'].name == name;
      assert i <= k';
      assert k <= i';
      assert k' == i;
  }
}

=== FILE: toc_queries.dfy ===
/** Render-time queries over a docset's TOC: the entry for a slug, the
    children of a slug, and the breadcrumb trail to the current page. All
    three find the same node: the first in pre-order whose `src` matches. */
module TocQueries {
  import opened Wrappers
  import opened TocTree

  /** Reference definition: the first node of a flat list with `src == x`. */
  function FirstMatch(flat: seq<Node>, x: string): (r: Option<Node>)
    ensures r.Some? ==> r.value in flat && r.value.src == x
    ensures r.None? <==> forall n :: n in flat ==> n.src != x
  {
    if |flat| == 0 then None
    else if flat[0].src == x then Some(flat[0])
    else FirstMatch(flat[1..], x)
  }

  lemma {:induction false} FirstMatchAppend(a: seq<Node>, b: seq<Node>, x: string)
    ensures FirstMatch(a + b, x) == if FirstMatch(a, x).Some? then FirstMatch(a, x) else FirstMatch(b, x)
    decreases |a|
  {
    if |a| > 0 {
      assert (a + b)[0] == a[0];
      assert (a + b)[1..] == a[1..] + b;
      FirstMatchAppend(a[1..], b, x);
    } else {
      assert a + b == b;
    }
  }

  /** `getTocEntryForFile` (lines 234-249): depth-first, a node before its
      children, siblings left to right; `None` for the PHP `false`. */
  function EntryFor(ns: seq<Node>, x: string): (r: Option<Node>)
    ensures r.Some? ==> r.value.src == x
    decreases ns
  {
    if |ns| == 0 then None
    else if ns[0].src == x then Some(ns[0])
    else
      assert ns[0] in ns;
      match ns[0].children
      case Absent => EntryFor(ns[1..], x)
      case Present(cs) =>
        match EntryFor(cs, x)
        case Some(e) => Some(e)
        case None => EntryFor(ns[1..], x)
  }

  /** The lookup returns exactly the first pre-order node with that slug. */
  lemma {:induction false} EntryForIsFirstInPreOrder(ns: seq<Node>, x: string)
    ensures EntryFor(ns, x) == FirstMatch(PreOrder(ns), x)
    decreases ns
  {
    if |ns| > 0 {
      assert ns[0] in ns;
      var kids := Kids(ns[0]);
      assert PreOrder(ns) == [ns[0]] + (PreOrder(kids) + PreOrder(ns[1..]));
      EntryForIsFirstInPreOrder(ns[1..], x);
      match ns[0].children
      case Absent =>
      case Present(cs) => EntryForIsFirstInPreOrder(cs, x);
      FirstMatchAppend([ns[0]], PreOrder(kids) + PreOrder(ns[1..]), x);
      FirstMatchAppend(PreOrder(kids), PreOrder(ns[1..]), x);
    }
  }

  /** The lookup succeeds exactly for the slugs present somewhere in the
      tree, and what it finds is a node of the tree. */
  lemma EntryForFindsEverySrc(ns: seq<Node>, x: string)
    ensures EntryFor(ns, x).Some? <==> x in Srcs(ns)
    ensures EntryFor(ns, x).Some? ==> EntryFor(ns, x).value in PreOrder(ns)
  {
    EntryForIsFirstInPreOrder(ns, x);
    if x in Srcs(ns) {
      var n :| n in PreOrder(ns) && n.src == x;
    }
  }

  /** `getChildrenEntriesFor` (lines 147-166): the matching node's children,
      `[]` when it has none, `None` (the PHP `null`) when nothing matches.
      It finds the same node as the entry lookup. */
  function ChildrenFor(ns: seq<Node>, x: string): (r: Option<seq<Node>>)
    ensures r.None? <==> EntryFor(ns, x).None?
    ensures r.Some? ==> r.value == Kids(EntryFor(ns, x).value)
    decreases ns
  {
    if |ns| == 0 then None
    else if ns[0].src == x then
      match ns[0].children
      case Present(cs) => Some(cs)
      case Absent => Some([])
    else
      assert ns[0] in ns;
      match ns[0].children
      case Absent => ChildrenFor(ns[1..], x)
      case Present(cs) =>
        match ChildrenFor(cs, x)
        case Some(res) => Some(res)
        case None => ChildrenFor(ns[1..], x)
  }

  /** `searchForCurrentPage` (lines 175-199): on success the crumbs are
      appended leaf first, each ancestor added while the recursion unwinds;
      a failed branch appends nothing. */
  function SearchForPage(ns: seq<Node>, page: string): (r: Option<seq<Crumb>>)
    ensures r.Some? <==> EntryFor(ns, page).Some?
    ensures r.Some? ==> |r.value| >= 1 && r.value[0] == CrumbOf(EntryFor(ns, page).value)
    decreases ns
  {
    if |ns| == 0 then None
    else if ns[0].src == page then Some([CrumbOf(ns[0])])
    else
      assert ns[0] in ns;
      match ns[0].children
      case Absent => SearchForPage(ns[1..], page)
      case Present(cs) =>
        match SearchForPage(cs, page)
        case Some(found) => Some(found + [CrumbOf(ns[0])])
        case None => SearchForPage(ns[1..], page)
  }

  /** `chain` is a root-to-leaf path in the forest `ns`: its first node is a
      top-level node and each next node is a child of the one before. */
  predicate IsChain(ns: seq<Node>, chain: seq<Node>) {
    && |chain| >= 1
    && chain[0] in ns
    && forall k :: 0 <= k < |chain| - 1 ==> chain[k + 1] in Kids(chain[k])
  }

  /** The chain from a top-level node down to the first pre-order match. */
  function ChainTo(ns: seq<Node>, x: string): (r: Option<seq<Node>>)
    ensures r.Some? ==> IsChain(ns, r.value) && r.value[|r.value| - 1].src == x
    decreases ns
  {
    if |ns| == 0 then None
    else if ns[0].src == x then Some([ns[0]])
    else
      assert ns[0] in ns;
      match ns[0].children
      case Absent => ChainTo(ns[1..], x)
      case Present(cs) =>
        match ChainTo(cs, x)
        case Some(c) => Some([ns[0]] + c)
        case None => ChainTo(ns[1..], x)
  }

  /** The chain ends at exactly the node the entry lookup returns. */
  lemma {:induction false} ChainEndsAtEntry(ns: seq<Node>, x: string)
    ensures ChainTo(ns, x).Some? <==> EntryFor(ns, x).Some?
    ensures ChainTo(ns, x).Some? ==>
      var c := ChainTo(ns, x).value; c[|c| - 1] == EntryFor(ns, x).value
    decreases ns
  {
    if |ns| > 0 && ns[0].src != x {
      assert ns[0] in ns;
      ChainEndsAtEntry(ns[1..], x);
      match ns[0].children
      case Absent =>
      case Present(cs) =>
        ChainEndsAtEntry(cs, x);
    }
  }

  function Crumbs(chain: seq<Node>): (r: seq<Crumb>)
    ensures |r| == |chain|
    ensures forall k :: 0 <= k < |chain| ==> r[k] == CrumbOf(chain[k])
  {
    seq(|chain|, k requires 0 <= k < |chain| => CrumbOf(chain[k]))
  }

  function Reverse<T>(s: seq<T>): (r: seq<T>)
    ensures |r| == |s|
    ensures forall k :: 0 <= k < |s| ==> r[k] == s[|s| - 1 - k]
  {
    seq(|s|, k requires 0 <= k < |s| => s[|s| - 1 - k])
  }

  /** The crumbs the search appends are the chain's crumbs, leaf first. */
  lemma {:induction false} SearchFollowsChain(ns: seq<Node>, x: string)
    ensures SearchForPage(ns, x) == match ChainTo(ns, x)
                                    case None => None
                                    case Some(c) => Some(Reverse(Crumbs(c)))
    decreases ns
  {
    if |ns| > 0 && ns[0].src != x {
      assert ns[0] in ns;
      SearchFollowsChain(ns[1..], x);
      match ns[0].children
      case Absent =>
      case Present(cs) =>
        SearchFollowsChain(cs, x);
        match ChainTo(cs, x)
        case None =>
        case Some(c) =>
          assert SearchForPage(cs, x) == Some(Reverse(Crumbs(c)));
          assert SearchForPage(ns, x) == Some(Reverse(Crumbs(c)) + [CrumbOf(ns[0])]);
          assert ChainTo(ns, x) == Some([ns[0]] + c);
          assert Reverse(Crumbs([ns[0]] + c)) == Reverse(Crumbs(c)) + [CrumbOf(ns[0])];
    } else if |ns| > 0 {
      assert Reverse(Crumbs([ns[0]])) == [CrumbOf(ns[0])];
    }
  }

  /** The root title of a docset (line 207): its configured title or
      "Documentation". */
  function RootTitle(configTitle: Option<string>): (t: string)
    ensures configTitle.Some? ==> t == configTitle.value
    ensures configTitle.None? ==> t == "Documentation"
  {
    configTitle.GetOr("Documentation")
  }

  /** `getTrailForCurrentPage` (lines 206-225), for a docset whose
      configuration holds `configTitle` under `title`. */
  function Trail(configTitle: Option<string>, page: string, toc: seq<Node>): (r: seq<Crumb>)
    ensures |r| >= 1 && r[0] == Crumb(RootTitle(configTitle), "index")
    ensures configTitle.None? ==> r[0].title == "Documentation"
  {
    var root := [Crumb(RootTitle(configTitle), "index")];
    if page == "index" then root
    else
      match SearchForPage(toc, page)
      case None => root
      case Some(found) => root + Reverse(found)
  }

  /** The trail is the bare root crumb exactly when the page is "index" or
      is not in the tree. */
  lemma TrailIsRootOnly(configTitle: Option<string>, page: string, toc: seq<Node>)
    ensures |Trail(configTitle, page, toc)| == 1 <==> page == "index" || EntryFor(toc, page).None?
  {
    SearchFollowsChain(toc, page);
    ChainEndsAtEntry(toc, page);
  }

  /** For a page found at depth d (the chain's length, top level 1), the
      trail has d + 1 crumbs: the root, then each node of the chain from the
      top-level ancestor down, ending with the page's own entry. */
  lemma TrailFollowsAncestors(configTitle: Option<string>, page: string, toc: seq<Node>)
    requires page != "index" && EntryFor(toc, page).Some?
    ensures ChainTo(toc, page).Some?
    ensures var chain := ChainTo(toc, page).value;
      && IsChain(toc, chain)
      && Trail(configTitle, page, toc) == [Crumb(RootTitle(configTitle), "index")] + Crumbs(chain)
      && |Trail(configTitle, page, toc)| == |chain| + 1
      && Trail(configTitle, page, toc)[|chain|] == CrumbOf(EntryFor(toc, page).value)
  {
    SearchFollowsChain(toc, page);
    ChainEndsAtEntry(toc, page);
    var chain := ChainTo(toc, page).value;
    assert Reverse(Reverse(Crumbs(chain))) == Crumbs(chain);
  }
}

=== FILE: toc_render.dfy ===
/** The render-time TOC list (`convertEntriesToHTML`) as a structured list
    rather than HTML, and the `@toc(...)` directive that embeds one in a
    page. */
module TocRender {
  import opened Wrappers
  import opened Strings
  import opened TocTree
  import opened TocQueries

  /** WordPress's `admin_url`, left uninterpreted. */
  type AdminUrl = string -> string

  /** The admin link to `page` of docset `docset`. */
  function PageLink(adminUrl: AdminUrl, docset: string, page: string): string {
    adminUrl("admin.php?page=ilab-docs-" + docset + "&doc-page=" + page)
  }

  /** One `<li>`: its link text, the page it links to, the link itself, and
      a nested `<ul>` exactly when the entry had a `children` key. */
  datatype Item = Item(title: string, page: string, href: string, nested: SubList)
  datatype SubList = NoSubList | SubList(items: seq<Item>)

  /** The items of a nested list, none when there is no nested list. */
  function SubItems(l: SubList): seq<Item> {
    if l.SubList? then l.items else []
  }

  /** `convertEntriesToHTML` (lines 260-278): an entry whose `src` is
      "index" is skipped together with its subtree. */
  function ConvertEntries(adminUrl: AdminUrl, docset: string, ns: seq<Node>): (r: seq<Item>)
    ensures |r| <= |ns|
    ensures forall k :: 0 <= k < |r| ==> r[k].page != "index"
    ensures (forall i :: 0 <= i < |ns| ==> ns[i].src != "index") ==>
      && |r| == |ns|
      && forall i :: 0 <= i < |ns| ==>
           && r[i].title == ns[i].title && r[i].page == ns[i].src
           && r[i].href == PageLink(adminUrl, docset, ns[i].src)
           && (r[i].nested.SubList? <==> ns[i].children.Present?)
           && (r[i].nested.SubList? ==>
                 r[i].nested.items == ConvertEntries(adminUrl, docset, ns[i].children.nodes))
    decreases ns
  {
    if |ns| == 0 then []
    else
      var rest := ConvertEntries(adminUrl, docset, ns[1..]);
      if ns[0].src == "index" then rest
      else
        assert ns[0] in ns;
        var nested := match ns[0].children
                      case Absent => NoSubList
                      case Present(cs) => SubList(ConvertEntries(adminUrl, docset, cs));
        [Item(ns[0].title, ns[0].src, PageLink(adminUrl, docset, ns[0].src), nested)] + rest
  }

  /** No item at any depth links to "index". */
  predicate NoIndexItem(items: seq<Item>)
    decreases items
  {
    forall k :: 0 <= k < |items| ==>
      && items[k].page != "index"
      && (items[k].nested.SubList? ==> NoIndexItem(items[k].nested.items))
  }

  lemma {:induction false} NoIndexAtAnyDepth(adminUrl: AdminUrl, docset: string, ns: seq<Node>)
    ensures NoIndexItem(ConvertEntries(adminUrl, docset, ns))
    decreases ns
  {
    if |ns| > 0 {
      assert ns[0] in ns;
      NoIndexAtAnyDepth(adminUrl, docset, ns[1..]);
      match ns[0].children
      case Absent =>
      case Present(cs) => NoIndexAtAnyDepth(adminUrl, docset, cs);
    }
  }

  /** An "index" entry contributes nothing, wherever it sits among its
      siblings and whatever lies below it. */
  lemma {:induction false} IndexEntrySkipped(adminUrl: AdminUrl, docset: string, ns: seq<Node>, k: nat)
    requires k < |ns| && ns[k].src == "index"
    ensures ConvertEntries(adminUrl, docset, ns) == ConvertEntries(adminUrl, docset, ns[..k] + ns[k + 1..])
    decreases k
  {
    if k == 0 {
      assert ns[..k] + ns[k + 1..] == ns[1..];
    } else {
      var ms := ns[..k] + ns[k + 1..];
      assert ms[0] == ns[0];
      assert ms[1..] == ns[1..][..k - 1] + ns[1..][k..];
      IndexEntrySkipped(adminUrl, docset, ns[1..], k - 1);
    }
  }

  /** The pages of an item list in pre-order. */
  function ItemPages(items: seq<Item>): seq<string>
    decreases items
  {
    if |items| == 0 then []
    else
      assert items[0] in items;
      match items[0].nested
      case NoSubList => [items[0].page] + ItemPages(items[1..])
      case SubList(sub) => [items[0].page] + ItemPages(sub) + ItemPages(items[1..])
  }

  function SrcList(ns: seq<Node>): (r: seq<string>)
    ensures |r| == |ns|
    ensures forall k :: 0 <= k < |ns| ==> r[k] == ns[k].src
  {
    seq(|ns|, k requires 0 <= k < |ns| => ns[k].src)
  }

  /** No node anywhere in the forest is an "index" entry. */
  predicate IndexFree(ns: seq<Node>) {
    forall n :: n in PreOrder(ns) ==> n.src != "index"
  }

  /** Skipping "index" is the only way a node is lost: in a tree without an
      "index" entry, the list links every node, in pre-order. */
  lemma {:induction false} IndexFreeTreeFullyListed(adminUrl: AdminUrl, docset: string, ns: seq<Node>)
    requires IndexFree(ns)
    ensures ItemPages(ConvertEntries(adminUrl, docset, ns)) == SrcList(PreOrder(ns))
    decreases ns, 1
  {
    if |ns| > 0 {
      var kids := Kids(ns[0]);
      IndexFreeParts(ns);
      IndexFreeTreeFullyListed(adminUrl, docset, ns[1..]);
      IndexFreeKids(adminUrl, docset, ns);
      ConvertHead(adminUrl, docset, ns);
      var A := ItemPages(ConvertEntries(adminUrl, docset, kids));
      var B := ItemPages(ConvertEntries(adminUrl, docset, ns[1..]));
      var P := PreOrder(kids);
      var Q := PreOrder(ns[1..]);
      assert ItemPages(ConvertEntries(adminUrl, docset, ns)) == [ns[0].src] + A + B;
      assert A == SrcList(P);
      assert B == SrcList(Q);
      SrcListAppend([ns[0]] + P, Q);
      SrcListAppend([ns[0]], P);
      assert SrcList([ns[0]]) == [ns[0].src];
      assert SrcList(PreOrder(ns)) == [ns[0].src] + SrcList(P) + SrcList(Q);
    }
  }

  lemma {:induction false} IndexFreeKids(adminUrl: AdminUrl, docset: string, ns: seq<Node>)
    requires |ns| > 0
    requires IndexFree(Kids(ns[0]))
    ensures ItemPages(ConvertEntries(adminUrl, docset, Kids(ns[0]))) == SrcList(PreOrder(Kids(ns[0])))
    decreases ns, 0
  {
    assert ns[0] in ns;
    match ns[0].children
    case Absent =>
    case Present(cs) =>
      IndexFreeTreeFullyListed(adminUrl, docset, cs);
  }

  lemma IndexFreeParts(ns: seq<Node>)
    requires |ns| > 0
    requires IndexFree(ns)
    ensures PreOrder(ns) == [ns[0]] + PreOrder(Kids(ns[0])) + PreOrder(ns[1..])
    ensures ns[0].src != "index"
    ensures IndexFree(Kids(ns[0])) && IndexFree(ns[1..])
  {
    PreOrderCons(ns);
    var a := PreOrder(Kids(ns[0]));
    var b := PreOrder(ns[1..]);
    assert forall n :: n in a ==> n in [ns[0]] + a + b;
    assert forall n :: n in b ==> n in [ns[0]] + a + b;
  }

  lemma ConvertHead(adminUrl: AdminUrl, docset: string, ns: seq<Node>)
    requires |ns| > 0 && ns[0].src != "index"
    ensures ItemPages(ConvertEntries(adminUrl, docset, ns)) ==
            [ns[0].src] + ItemPages(ConvertEntries(adminUrl, docset, Kids(ns[0])))
                        + ItemPages(ConvertEntries(adminUrl, docset, ns[1..]))
  {
    var rest := ConvertEntries(adminUrl, docset, ns[1..]);
    var nested := match ns[0].children
                  case Absent => NoSubList
                  case Present(cs) => SubList(ConvertEntries(adminUrl, docset, cs));
    var item := Item(ns[0].title, ns[0].src, PageLink(adminUrl, docset, ns[0].src), nested);
    assert ConvertEntries(adminUrl, docset, ns) == [item] + rest;
    ItemPagesCons(item, rest);
  }

  /** The pages of an item list headed by `item`. */
  lemma ItemPagesCons(item: Item, rest: seq<Item>)
    ensures ItemPages([item] + rest) == [item.page] + ItemPages(SubItems(item.nested)) + ItemPages(rest)
  {
    var r := [item] + rest;
    assert r[0] == item && r[1..] == rest;
    if item.nested.NoSubList? {
      assert ItemPages(SubItems(item.nested)) == [];
    }
  }

  lemma SrcListAppend(a: seq<Node>, b: seq<Node>)
    ensures SrcList(a + b) == SrcList(a) + SrcList(b)
  {
  }

  /** The opening of a `@toc(...)` directive. */
  const TocOpen: string := "@toc("

  /** The arguments of every `@toc(...)` directive in a page, left to right
      (the matches of `/@toc\(([^)]*)\)/`, line 386): the argument runs to
      the first `)` after the opening. */
  function TocArgs(text: string): (r: seq<string>)
    ensures forall k :: 0 <= k < |r| ==> ')' !in r[k]
    decreases |text|
  {
    match IndexOf(text, TocOpen)
    case None => []
    case Some(i) =>
      var rest := text[i + |TocOpen|..];
      match IndexOf(rest, ")")
      case None => []
      case Some(j) =>
        assert forall c :: 0 <= c < j ==> !OccursAt(rest, ")", c);
        assert forall c :: 0 <= c < j ==> rest[c] != ')' by {
          forall c | 0 <= c < j ensures rest[c] != ')' {
            assert !OccursAt(rest, ")", c);
            assert rest[c..c + 1] == [rest[c]];
          }
        }
        [rest[..j]] + TocArgs(rest[j + 1..])
  }

  /** A directive written out is read back: `@toc(a)` followed by any text
      yields `a` followed by the arguments of that text. */
  lemma TocArgsRoundTrip(a: string, rest: string)
    requires ')' !in a
    ensures TocArgs(TocOpen + a + ")" + rest) == [a] + TocArgs(rest)
  {
    var text := TocOpen + a + ")" + rest;
    assert StartsWith(text, TocOpen);
    assert IndexOf(text, TocOpen) == Some(0);
    var after := text[|TocOpen|..];
    assert after == a + ")" + rest;
    assert OccursAt(after, ")", |a|);
    forall c | 0 <= c < |a|
      ensures !OccursAt(after, ")", c)
    {
      assert after[c] == a[c];
      assert after[c..c + 1] == [a[c]];
    }
    var j := IndexOf(after, ")").value;
    assert j == |a|;
    assert after[..j] == a;
    assert after[j + 1..] == rest;
  }

  /** PHP `empty()` on a string: true for "" and for "0". */
  predicate PhpEmpty(s: string) {
    s == "" || s == "0"
  }

  /** Lines 388-399: which entries a directive with argument `arg` lists.
      `toc` is `None` when the config has no `toc` key. `None` means the
      directive is left in the page untouched. */
  function TocSelection(arg: string, currentPage: string, toc: Option<seq<Node>>): (r: Option<seq<Node>>)
    ensures r.Some? ==> |r.value| > 0
    ensures (if PhpEmpty(arg) then currentPage else arg) == "index" ==>
      && (r.Some? <==> toc.Some? && |toc.value| > 0)
      && (r.Some? ==> r.value == toc.value)
  {
    var page := if PhpEmpty(arg) then currentPage else arg;
    var entries := if page == "index" then toc
                   else match toc
                        case None => None
                        case Some(t) => ChildrenFor(t, page);
    match entries
    case None => None
    case Some(e) => if |e| > 0 then Some(e) else None
  }

  /** A directive naming a page other than "index" lists that page's
      children, and is replaced exactly when the page is in the tree and has
      at least one child. */
  lemma TocSelectionOfPage(arg: string, currentPage: string, toc: seq<Node>)
    requires !PhpEmpty(arg) && arg != "index"
    ensures TocSelection(arg, currentPage, Some(toc)).Some? <==>
            EntryFor(toc, arg).Some? && |Kids(EntryFor(toc, arg).value)| > 0
    ensures TocSelection(arg, currentPage, Some(toc)).Some? ==>
            TocSelection(arg, currentPage, Some(toc)).value == Kids(EntryFor(toc, arg).value)
  {
  }

  /** An empty argument (or "0") stands for the current page. */
  lemma TocSelectionDefaultsToCurrentPage(arg: string, currentPage: string, toc: Option<seq<Node>>)
    requires PhpEmpty(arg)
    ensures TocSelection(arg, currentPage, toc) == TocSelection(currentPage, currentPage, toc)
  {
  }

  /** The list a directive renders to, when it is replaced. */
  function TocDirective(adminUrl: AdminUrl, docset: string, arg: string, currentPage: string,
                        toc: Option<seq<Node>>): (r: Option<seq<Item>>)
    ensures r.Some? <==> TocSelection(arg, currentPage, toc).Some?
    ensures r.Some? ==> |r.value| <= |TocSelection(arg, currentPage, toc).value|
    ensures r.Some? ==> forall k :: 0 <= k < |r.value| ==> r.value[k].page != "index"
    ensures r.Some? ==> r.value == ConvertEntries(adminUrl, docset, TocSelection(arg, currentPage, toc).value)
  {
    match TocSelection(arg, currentPage, toc)
    case None => None
    case Some(entries) => Some(ConvertEntries(adminUrl, docset, entries))
  }
}

=== FILE: toc_tree.dfy ===
/** The table-of-contents tree stored under the `toc` key of a docset's
    `config.json`. A node's `children` key may be absent or present and
    possibly empty; the two are told apart with `isset`. */
module TocTree {

  datatype Node = Node(title: string, src: string, children: Children)

  /** The `children` key of an entry: `Absent`, or `Present` with a list that
      may be empty. This is `Option<seq<Node>>` written out as its own
      datatype, so that a node's children rank below the node. */
  datatype Children = Absent | Present(nodes: seq<Node>)

  /** A breadcrumb: the `{title, src}` pair copied out of a node. */
  datatype Crumb = Crumb(title: string, src: string)

  function CrumbOf(n: Node): Crumb {
    Crumb(n.title, n.src)
  }

  /** The children of a node, or nothing when the key is absent. */
  function Kids(n: Node): seq<Node> {
    if n.children.Present? then n.children.nodes else []
  }

  /** All nodes of a forest in pre-order: a node before its children,
      siblings left to right. */
  function PreOrder(ns: seq<Node>): (r: seq<Node>)
    ensures |ns| > 0 ==> |r| > 0 && r[0] == ns[0]
    decreases ns
  {
    if |ns| == 0 then []
    else
      assert ns[0] in ns;
      match ns[0].children
      case Absent => [ns[0]] + PreOrder(ns[1..])
      case Present(cs) => [ns[0]] + PreOrder(cs) + PreOrder(ns[1..])
  }

  /** Membership in the pre-order is membership at some top-level position
      or somewhere below one. */
  lemma {:induction false} InPreOrder(n: Node, ns: seq<Node>)
    ensures n in PreOrder(ns) <==>
            exists k :: 0 <= k < |ns| && (n == ns[k] || n in PreOrder(Kids(ns[k])))
    decreases ns
  {
    if |ns| > 0 {
      assert ns[0] in ns;
      InPreOrder(n, ns[1..]);
      PreOrderCons(ns);
      var tail := ns[1..];
      if n == ns[0] || n in PreOrder(Kids(ns[0])) {
        assert 0 < |ns| && (n == ns[0] || n in PreOrder(Kids(ns[0])));
      } else if n in PreOrder(tail) {
        var k :| 0 <= k < |tail| && (n == tail[k] || n in PreOrder(Kids(tail[k])));
        assert ns[k + 1] == tail[k];
      } else {
        forall k | 0 <= k < |ns|
          ensures !(n == ns[k] || n in PreOrder(Kids(ns[k])))
        {
          if k > 0 {
            assert tail[k - 1] == ns[k];
          }
        }
      }
    }
  }

  /** The pre-order of a concatenation is the concatenation of pre-orders. */
  lemma {:induction false} PreOrderAppend(a: seq<Node>, b: seq<Node>)
    ensures PreOrder(a + b) == PreOrder(a) + PreOrder(b)
    decreases a
  {
    if |a| == 0 {
      assert a + b == b;
    } else {
      assert (a + b)[0] == a[0];
      assert (a + b)[1..] == a[1..] + b;
      PreOrderAppend(a[1..], b);
    }
  }

  /** Every top-level node and every child of a node in the pre-order is in it. */
  lemma ChildrenInPreOrder(n: Node, c: Node, ns: seq<Node>)
    requires n in PreOrder(ns)
    requires c in Kids(n)
    ensures c in PreOrder(ns)
    decreases ns
  {
    InPreOrder(n, ns);
    var k :| 0 <= k < |ns| && (n == ns[k] || n in PreOrder(Kids(ns[k])));
    InPreOrder(c, Kids(n));
    if n == ns[k] {
      assert c in PreOrder(Kids(ns[k]));
    } else {
      assert ns[k] in ns;
      ChildrenInPreOrder(n, c, Kids(ns[k]));
    }
    InPreOrder(c, ns);
  }

  /** The set of all `src` values anywhere in the forest. */
  function Srcs(ns: seq<Node>): set<string> {
    set n | n in PreOrder(ns) :: n.src
  }

  /** The pre-order unfolded once: a node, then its subtree, then its siblings. */
  lemma PreOrderCons(ns: seq<Node>)
    requires |ns| > 0
    ensures PreOrder(ns) == [ns[0]] + PreOrder(Kids(ns[0])) + PreOrder(ns[1..])
  {
    assert PreOrder([]) == [];
  }
}

=== FILE: url_filter.dfy ===
/** The link-rewriting rule installed as the markdown parser's URL filter
    while a page renders (lines 345-372). Its cases apply in priority order:
    doc links, admin links, docset-local images, everything else. */
module UrlFilter {
  import opened Wrappers
  import opened Strings
  import TocRender

  const AdminMarker: string := "admin:"

  /** The image extensions of the local-image pattern. */
  predicate ImageExtAt(url: string, p: int) {
    OccursAt(url, ".jpg", p) || OccursAt(url, ".png", p) ||
    OccursAt(url, ".jpeg", p) || OccursAt(url, ".svg", p)
  }

  /** `/(^[^\/]{1}.*\.(?:jpg|png|jpeg|svg))/`: a first character other than
      `/`, then (without crossing a line break) an image extension. */
  predicate IsLocalImage(url: string) {
    && |url| >= 1
    && url[0] != '/'
    && exists p :: 1 <= p <= |url| && ImageExtAt(url, p) && '\n' !in url[1..p]
  }

  /** What `admin:(.*)` captures: the text after the first "admin:", up to
      the end of its line. */
  function AdminTarget(url: string, i: nat): (r: string)
    requires i + |AdminMarker| <= |url|
    ensures '\n' !in r
    ensures StartsWith(url[i + |AdminMarker|..], r)
    ensures |r| == |url| - i - |AdminMarker| || url[i + |AdminMarker| + |r|] == '\n'
  {
    var rest := url[i + |AdminMarker|..];
    match IndexOf(rest, "\n")
    case None =>
      assert forall c :: 0 <= c < |rest| ==> rest[c] != '\n' by {
        forall c | 0 <= c < |rest| ensures rest[c] != '\n' {
          assert !OccursAt(rest, "\n", c);
          assert rest[c..c + 1] == [rest[c]];
        }
      }
      rest
    case Some(j) =>
      assert forall c :: 0 <= c < j ==> rest[c] != '\n' by {
        forall c | 0 <= c < j ensures rest[c] != '\n' {
          assert !OccursAt(rest, "\n", c);
          assert rest[c..c + 1] == [rest[c]];
        }
      }
      rest[..j]
  }

  predicate IsAbsoluteHttp(url: string) {
    StartsWith(url, "http://") || StartsWith(url, "https://")
  }

  /** The filter for a page of docset `docset`, whose public URL is `docsetUrl`. */
  function FilterUrl(adminUrl: TocRender.AdminUrl, docset: string, docsetUrl: string, url: string): (r: string)
    ensures Contains(url, MdExt) ==>
      r == TocRender.PageLink(adminUrl, docset, RemoveAll(url, MdExt))
    ensures !Contains(url, MdExt) && Contains(url, AdminMarker) ==>
      var i := IndexOf(url, AdminMarker).value;
      && r == adminUrl(AdminTarget(url, i))
      && forall j :: 0 <= j < i ==> !OccursAt(url, AdminMarker, j)
    ensures !Contains(url, MdExt) && !Contains(url, AdminMarker) && IsLocalImage(url) ==>
      r == (if IsAbsoluteHttp(url) then url else docsetUrl + url)
    ensures !Contains(url, MdExt) && !Contains(url, AdminMarker) && !IsLocalImage(url) ==> r == url
  {
    if Contains(url, MdExt) then
      TocRender.PageLink(adminUrl, docset, RemoveAll(url, MdExt))
    else if Contains(url, AdminMarker) then
      adminUrl(AdminTarget(url, IndexOf(url, AdminMarker).value))
    else if IsLocalImage(url) then
      if StartsWith(url, "http://") then url
      else if StartsWith(url, "https://") then url
      else docsetUrl + url
    else url
  }

  /** A link to another document wins over every other rule: any URL that
      holds ".md" becomes the admin page link of its slug, even when it also
      carries "admin:" or an image extension. */
  lemma DocLinkTakesPriority(adminUrl: TocRender.AdminUrl, docset: string, docsetUrl: string, url: string)
    requires Contains(url, MdExt)
    ensures FilterUrl(adminUrl, docset, docsetUrl, url) ==
            TocRender.PageLink(adminUrl, docset, RemoveAll(url, MdExt))
  {
  }

  /** Outside the doc-link and admin-link cases the filter either keeps the
      URL or prefixes the docset URL; a root-relative path is always kept. */
  lemma NonLinkUrls(adminUrl: TocRender.AdminUrl, docset: string, docsetUrl: string, url: string)
    requires !Contains(url, MdExt) && !Contains(url, AdminMarker)
    ensures var r := FilterUrl(adminUrl, docset, docsetUrl, url);
      && (r == url || r == docsetUrl + url)
      && (|url| > 0 && url[0] == '/' ==> r == url)
      && (|docsetUrl| > 0 ==> (r == docsetUrl + url <==> IsLocalImage(url) && !IsAbsoluteHttp(url)))
  {
    if |docsetUrl| > 0 {
      assert |docsetUrl + url| != |url|;
    }
  }

  /** A relative image path such as `img/a.png` is served from the docset. */
  lemma RelativeImageServedFromDocset(adminUrl: TocRender.AdminUrl, docset: string, docsetUrl: string,
                                      name: string)
    requires |name| > 0 && name[0] != '/' && '\n' !in name
    requires !Contains(name + ".png", MdExt) && !Contains(name + ".png", AdminMarker)
    requires !StartsWith(name, "http://") && !StartsWith(name, "https://")
    ensures FilterUrl(adminUrl, docset, docsetUrl, name + ".png") == docsetUrl + name + ".png"
  {
    var url := name + ".png";
    assert OccursAt(url, ".png", |name|);
    assert url[1..|name|] == name[1..];
    assert IsLocalImage(url);
    assert url[|name|] == '.';
  }
}

=== FILE: wrappers.dfy ===
/** The optional value used wherever the PHP code returns `null`/`false` for a miss
    or leaves an array key unset. */
module Wrappers {

  datatype Option<+T> = None | Some(value: T) {

    /** PHP's `$x ?? $fallback`: the held value, or `fallback` for a miss. */
    function GetOr(fallback: T): T {
      if Some? then value else fallback
    }
  }
}
